=== FILE: README.md ===
# Forseti importer of IAM Explain — a Dafny model

This project models `ForsetiImporter`, the importer of IAM Explain. It
reads the Forseti inventory as a stream of `(kind, payload)` records and
rebuilds the resource hierarchy, principals, roles and policy bindings in a
model store. The model covers the following:

- **Members.** Policy member strings `"type:name"` are split at the first
  `:` only. A string without `:` is malformed.
- **Names.** Local names are `"type/id"`. A full name is the parent's
  cached full name, `/`, and the child's local name. Member types of
  memberships are lower-cased.
- **Store.** The persisted tables are maps keyed by unique name, and writes
  follow the ORM's merge-by-primary-key. A principal merged without a
  parent list keeps its stored parents. A resource merged without a display
  name keeps its stored display name.
- **Resources.** These are the converters for organizations, folders,
  projects, buckets and Cloud SQL instances. A run-local cache maps local
  names to `(node, full name)`. A child whose parent key is not cached fails
  with `ParentNotCached`, which models the source's `KeyError`.
- **Principals.** Group records become `"group/<email>"` principals.
  Membership records upsert their groups and then the member, with its
  parents set to exactly those groups.
- **Policies.** Every binding of a policy document upserts its members and
  finds or creates its role. It then looks up the bound resource and
  appends one binding. A missing resource fails with `ResourceNotFound`,
  which models `query().one()`.
- **Importer.** The run works as follows:
  - Each record is dispatched by kind. The kind `customer` is skipped.
  - Any other unknown kind fails with `UnsupportedKind`.
  - The model is marked in progress before the first record.
  - The watchdog is kicked at the start of the run. After that it is kicked
    only when more than 10 seconds have passed since the last kick.
  - The model is marked done only after the last record.
  - `RunImport` is the loop as written. It computes exactly the fold `Run`.
  - `BySource` resolves an importer by its name.

Two things are parameters rather than part of the model. The clock is a
parameter: every event carries the reading taken right after its record is
handled. The permissions a newly created role receives come from a
`PermissionSource` function parameter.

The run-level properties live in `RunProperties`:

- Parents come before children. A record whose parent key no earlier
  record introduced makes the run fail at that record or before it.
- The cache's keys are exactly the keys the handled records introduced.
- Every cached full name is a well-formed path from an organization.
- DONE holds exactly when every record was handled. A done run contains
  every record's trace and exactly the policy bindings in stream order.
- A failed run stops at the first failing record, with that record's error.
- Watchdog kicks are more than 10 s apart, and after each record at most
  10 s have passed since the last kick.

`Scenarios` works through a few concrete runs.

## Model

| member | source | states |
|---|---|---|
| Members.FirstIndex | google/cloud/security/iam/explain/importer/importer.py:48 | finds the first `:`: absent exactly when the string has none; otherwise no `:` occurs before the index found |
| Members.ParseMember | google/cloud/security/iam/explain/importer/importer.py:47-48 | parses exactly when the string contains a `:`; otherwise fails with `MalformedMember` of that string |
| Members.ParseMemberSplits | google/cloud/security/iam/explain/importer/importer.py:48 | a parse splits at the first `:`: the type holds no `:`, and type + `:` + name is the original string |
| Members.ParseFormat | google/cloud/security/iam/explain/importer/importer.py:47-58 | parsing undoes formatting whenever the type holds no `:`, even if the name does |
| Members.FormatParse | google/cloud/security/iam/explain/importer/importer.py:47-58 | formatting undoes a successful parse |
| Names.LocalNameInjective | google/cloud/security/iam/explain/importer/importer.py:257-258 | a `"type/id"` name determines its type and id when the type holds no `/` |
| Names.ChildIsPath | google/cloud/security/iam/explain/importer/importer.py:179-180 | a local name appended below a container's full name gives a well-formed full name |
| Names.PathShape | google/cloud/security/iam/explain/importer/importer.py:160-212 | every well-formed full name starts with `organization/` and ends with its own local name |
| Names.ToLower | google/cloud/security/iam/explain/importer/importer.py:304 | lower-casing keeps the length and maps every upper-case ASCII letter to its lower-case letter |
| Names.ToLowerIdempotent | google/cloud/security/iam/explain/importer/importer.py:304 | a lower-cased type has no upper-case letter left, and lower-casing it again changes nothing |
| Store.MergeResource | google/cloud/security/iam/explain/importer/importer.py:205-211 | a merge adds the node's name to the resource keys and leaves every other resource and table untouched |
| Store.MergeResourceStores | google/cloud/security/iam/explain/importer/importer.py:222-227 | the merged node is stored as given, except that a node with no display name keeps the stored one |
| Store.MergeResourceIdempotent | google/cloud/security/iam/explain/importer/importer.py:205-211 | merging the same node twice is the same as merging it once |
| Store.MergeResourceLatestWins | google/cloud/security/iam/explain/importer/importer.py:205-211 | a second merge under the same name with a display name overwrites the first entirely; the table grows by at most one row |
| Store.MergePrincipal | google/cloud/security/iam/explain/importer/importer.py:255-260 | a principal merge adds the name and touches nothing else |
| Store.MergePrincipalStores | google/cloud/security/iam/explain/importer/importer.py:306-310 | with a parent list, the principal is stored as given; without one, it keeps its stored parents, or none if it is new |
| Store.MergePrincipalKeepsParents | google/cloud/security/iam/explain/importer/importer.py:255-260 | a merge without a parent list leaves every principal's parents as they were |
| Store.MergePrincipalIdempotent | google/cloud/security/iam/explain/importer/importer.py:314-317 | merging a principal twice is the same as once and adds at most one row |
| Store.GetOrCreateRole | google/cloud/security/iam/explain/importer/importer.py:276-286 | an existing role is reused and the store is unchanged; a missing role is created with the given permissions, which join the permission table |
| Store.AddBinding | google/cloud/security/iam/explain/importer/importer.py:290-292 | appends exactly one binding and changes nothing else |
| Store.GrowsTransitive | google/cloud/security/iam/explain/importer/importer.py:326-354 | store growth across records composes: keys only grow, roles stay, bindings only extend |
| Resources.ConvertOrganization | google/cloud/security/iam/explain/importer/importer.py:160-168 | the organization's full name is its local name and it has no parent; it is stored and cached under both its name and the key `organization`, with the same entry; the resource keys gain exactly its name, every other resource and every other table is unchanged, and a stored display name is kept |
| Resources.ResolveChild | google/cloud/security/iam/explain/importer/importer.py:173-192 | succeeds exactly when the parent key is cached, else fails with `ParentNotCached`; on success the node `type/id` is stored with full name parent full name + `/type/id`, the parent's name as parent, its type and the given display name, or the stored display name when none is given; every other resource and table is unchanged; the cache gains exactly `type/id` when caching is asked (holding the stored full name) and is otherwise unchanged |
| Resources.ConvertFolder | google/cloud/security/iam/explain/importer/importer.py:173-192 | a folder fails exactly when its parent key is missing; on success its full name is the parent's full name + `/folder/<id>`, and it is stored with its parent and cached under `folder/<id>`; a given display name is stored, a missing one keeps the stored display name |
| Resources.ConvertProject | google/cloud/security/iam/explain/importer/importer.py:197-213 | a project fails exactly when its parent key is missing; on success its full name is the parent's full name + `/project/<number>`, and it is stored and cached under `project/<number>`; a given project name is stored as display name, a missing one keeps the stored display name |
| Resources.ConvertBucket | google/cloud/security/iam/explain/importer/importer.py:218-228 | a bucket fails exactly when its project is not cached; on success its full name is under the project's and the cache is unchanged |
| Resources.ConvertSqlInstance | google/cloud/security/iam/explain/importer/importer.py:233-245 | a SQL instance fails exactly when its project is not cached; on success its full name is under the project's and the cache is unchanged |
| Resources.OrganizationKeepsWellFormed | google/cloud/security/iam/explain/importer/importer.py:160-167 | an organization keeps every cached full name a well-formed path and every stored resource well named |
| Resources.ResolveChildKeepsWellFormed | google/cloud/security/iam/explain/importer/importer.py:177-191 | resolving a child below a cached parent keeps the cache and store invariant |
| Resources.FolderKeepsWellFormed | google/cloud/security/iam/explain/importer/importer.py:173-192 | a folder placed below a cached container keeps every cached full name a well-formed path and every stored resource well named |
| Resources.ProjectKeepsWellFormed | google/cloud/security/iam/explain/importer/importer.py:197-213 | a project placed below a cached container keeps the cache and store invariant |
| Resources.BucketKeepsWellFormed | google/cloud/security/iam/explain/importer/importer.py:218-228 | a bucket placed below its cached project keeps the cache and store invariant |
| Resources.SqlInstanceKeepsWellFormed | google/cloud/security/iam/explain/importer/importer.py:233-245 | a SQL instance placed below its cached project keeps the cache and store invariant |
| Resources.CachedFullNameShape | google/cloud/security/iam/explain/importer/importer.py:166-212 | in a well-formed cache every full name starts with `organization/` and ends with the node's local name |
| Principals.ConvertGroup | google/cloud/security/iam/explain/importer/importer.py:312-317 | a group record stores principal `group/<email>` of type group, keeping any stored parents; nothing else changes |
| Principals.MergeGroups | google/cloud/security/iam/explain/importer/importer.py:298-302 | upserting a membership's groups adds exactly their names and changes only principals |
| Principals.MergeGroupsStores | google/cloud/security/iam/explain/importer/importer.py:298-302 | each upserted group is a group principal with its prior parents; every other principal is untouched |
| Principals.MemberNameInjective | google/cloud/security/iam/explain/importer/importer.py:304-310 | with `/`-free member types, two memberships name the same principal exactly when their lower-cased types and emails agree |
| Principals.ConvertMembership | google/cloud/security/iam/explain/importer/importer.py:294-310 | the member is stored as `<lower type>/<email>` with lower-cased type and parents exactly the membership's groups; all groups exist; only those names are added |
| Principals.ConvertMembershipIdempotent | google/cloud/security/iam/explain/importer/importer.py:294-310 | replaying a membership changes nothing |
| Principals.ConvertGroupIdempotent | google/cloud/security/iam/explain/importer/importer.py:312-317 | replaying a group record changes nothing |
| Policies.MergeMembers | google/cloud/security/iam/explain/importer/importer.py:253-260 | upserting a binding's members succeeds exactly when every member string has a `:`, else fails with `MalformedMember`; only principals change; the principal names afterwards are exactly the old ones plus the members' `type/name` names, and every principal no member names is unchanged |
| Policies.MemberNameSetHolds | google/cloud/security/iam/explain/importer/importer.py:256-257 | the set of member principal names holds exactly the names of the member list |
| Policies.MergeMembersStores | google/cloud/security/iam/explain/importer/importer.py:255-260 | the last member of each principal name is stored with that member's type and name, and every member principal keeps the parents it had (none if new), since the merge passes no parent list |
| Policies.MergeMembersSlashFree | google/cloud/security/iam/explain/importer/importer.py:255-260 | when no member type contains `/`, every member is stored with its own type and name and its kept parents |
| Policies.MergeMembersNames | google/cloud/security/iam/explain/importer/importer.py:254-260 | the principal names returned are the members' `type/name` names, in member order |
| Policies.MergeMembersPrincipals | google/cloud/security/iam/explain/importer/importer.py:255-260 | every returned member name is a principal afterwards |
| Policies.MergeMembersFirstError | google/cloud/security/iam/explain/importer/importer.py:72-76 | a failure reports the first malformed member string, all before it being well formed |
| Policies.ApplyBinding | google/cloud/security/iam/explain/importer/importer.py:252-292 | one binding succeeds exactly when its members are well formed and the resource exists; its role names are exactly the old ones plus the binding's role, a new role holding the permission source's permissions, and the permission table gains exactly those permissions when the role is new |
| Policies.ApplyBindingAdds | google/cloud/security/iam/explain/importer/importer.py:290-292 | a successful binding appends exactly one binding of the resource, role and member names |
| Policies.ApplyBindingPrincipals | google/cloud/security/iam/explain/importer/importer.py:253-260 | a successful binding adds exactly its members' principal names, leaves every other principal unchanged, and keeps each member principal's parents |
| Policies.ApplyBindings | google/cloud/security/iam/explain/importer/importer.py:250-292 | a document succeeds exactly when all members are well formed and, if it has a binding, the resource exists; the store only grows |
| Policies.ApplyBindingsError | google/cloud/security/iam/explain/importer/importer.py:250-292 | a failing well-formed document fails with `ResourceNotFound`; with the resource present only a malformed member can fail it; a first binding with well-formed members and a missing resource fails with `ResourceNotFound` |
| Policies.ApplyBindingsPrincipals | google/cloud/security/iam/explain/importer/importer.py:252-260 | a successful document adds exactly the principal names of all its members and leaves every other principal unchanged |
| Policies.ApplyBindingsKeepsParents | google/cloud/security/iam/explain/importer/importer.py:252-260 | after a successful document every member principal exists and keeps the parents it had before the policy |
| Policies.ApplyBindingsContents | google/cloud/security/iam/explain/importer/importer.py:250-292 | a successful document appends one binding per entry in document order; all its roles and members exist; new roles carry the permission source's permissions |
| Policies.PolicyRolesHolds | google/cloud/security/iam/explain/importer/importer.py:252-278 | the document's role set holds exactly the role names of its entries |
| Policies.ApplyBindingsRoles | google/cloud/security/iam/explain/importer/importer.py:276-286 | a successful document adds exactly the roles its entries name, and the permission table gains exactly the source's permissions of the roles that did not exist before |
| Policies.ConvertPolicy | google/cloud/security/iam/explain/importer/importer.py:247-292 | a policy on `(type, id)` succeeds exactly when its members are well formed and `type/id` exists (or it has no binding); it then appends exactly its bindings on `type/id`, adds exactly its members' principal names, leaves every other principal unchanged and keeps each member's parents; the roles gain exactly the document's role names, each new one holding the permission source's permissions, and the permission table gains exactly those new roles' permissions; a well-formed policy can only fail with `ResourceNotFound` |
| Importer.Dispatch | google/cloud/security/iam/explain/importer/importer.py:326-349 | `customer` changes nothing; an unknown kind fails with `UnsupportedKind`; a payload whose shape does not match its kind fails with `PayloadMismatch` (see Left out for `group`); a handled record only grows the store |
| Importer.Heartbeat | google/cloud/security/iam/explain/importer/importer.py:351-354 | kicks exactly when more than 10 s have passed since the last kick, logging and recording the kick; afterwards at most 10 s have passed |
| Importer.Process | google/cloud/security/iam/explain/importer/importer.py:326-354 | the record loop keeps the model's status and stops only at an index inside the stream |
| Importer.StartRun | google/cloud/security/iam/explain/importer/importer.py:321-325 | a run starts in progress with an empty cache |
| Importer.Run | google/cloud/security/iam/explain/importer/importer.py:319-357 | a completed run is done; an aborted run is still in progress and names an index inside the stream |
| Importer.RunImport | google/cloud/security/iam/explain/importer/importer.py:319-357 | the loop as written computes exactly the fold `Run` |
| Importer.ProcessStoppedExtends | google/cloud/security/iam/explain/importer/importer.py:326-349 | once a prefix stops the loop, no later record is looked at |
| Importer.BySource | google/cloud/security/iam/explain/importer/importer.py:360-367 | resolves exactly `TEST`, `FORSETI` and `EMPTY`, each to the importer with that name |
| Importer.BySourceRoundTrip | google/cloud/security/iam/explain/importer/importer.py:363-367 | every importer is found under its own name |
| RunProperties.ProcessStoppedExplained | google/cloud/security/iam/explain/importer/importer.py:326-349 | a stopped loop stopped at a record whose dispatch failed with the reported error, in the state the earlier records produced |
| RunProperties.ProcessRunningPrefixes | google/cloud/security/iam/explain/importer/importer.py:326-354 | a loop that got through the whole stream got through every prefix of it |
| RunProperties.RunOutcome | google/cloud/security/iam/explain/importer/importer.py:321-357 | the model ends done exactly when every record was handled without error; a failed run is in progress, stopped at its first failing record, with that record's error |
| RunProperties.DispatchKinds | google/cloud/security/iam/explain/importer/importer.py:328-349 | `UnsupportedKind` arises exactly for kinds neither handled nor `customer` |
| RunProperties.DispatchCache | google/cloud/security/iam/explain/importer/importer.py:166-245 | a record with a parent is handled exactly when its parent key is cached; a handled record adds exactly its own cache keys |
| RunProperties.ProcessCacheKeys | google/cloud/security/iam/explain/importer/importer.py:166-212 | after handled records the cache keys are exactly those the records introduced |
| RunProperties.MissingParentAborts | google/cloud/security/iam/explain/importer/importer.py:170-245 | a child whose parent key no earlier record introduced aborts the run at or before it, and the model is never done |
| RunProperties.DispatchKeepsWellFormed | google/cloud/security/iam/explain/importer/importer.py:326-349 | every handled record keeps the cache and store invariant |
| RunProperties.ProcessKeepsWellFormed | google/cloud/security/iam/explain/importer/importer.py:326-354 | every state the loop reaches keeps the cache and store invariant |
| RunProperties.RunKeepsWellFormed | google/cloud/security/iam/explain/importer/importer.py:319-357 | a run from a well-formed store ends, done or failed, with a well-formed cache and store |
| RunProperties.DispatchLeaves | google/cloud/security/iam/explain/importer/importer.py:328-343 | a handled record leaves its resource, principals or roles in the store and appends exactly its own bindings |
| RunProperties.ProcessGrows | google/cloud/security/iam/explain/importer/importer.py:326-354 | the store only grows over the loop |
| RunProperties.ProcessLeaves | google/cloud/security/iam/explain/importer/importer.py:326-354 | after handled records each record's resource, principals or roles are in the store |
| RunProperties.ProcessBindings | google/cloud/security/iam/explain/importer/importer.py:326-354 | after handled records the bindings are the old ones followed by every policy's bindings, in stream order |
| RunProperties.RunCompletedContents | google/cloud/security/iam/explain/importer/importer.py:356-357 | a done run holds every record's trace and exactly the old bindings followed by every policy's bindings |
| RunProperties.HeartbeatKeepsKicksSpaced | google/cloud/security/iam/explain/importer/importer.py:351-354 | a watchdog check keeps consecutive kicks more than 10 s apart and only appends to the kick log |
| RunProperties.ProcessKeepsKicksSpaced | google/cloud/security/iam/explain/importer/importer.py:351-354 | over the loop, kicks stay more than 10 s apart and the model's watchdog time is the last kick |
| RunProperties.HeartbeatLiveness | google/cloud/security/iam/explain/importer/importer.py:351-354 | right after each handled record at most 10 s have passed since the last kick |
| RunProperties.RunKicks | google/cloud/security/iam/explain/importer/importer.py:322-354 | a run's first kick is at its start, and later kicks are more than 10 s apart |
| Scenarios.OrganizationThenProject | google/cloud/security/iam/explain/importer/importer.py:197-213 | organization 123 then project 456 completes, with full name `organization/123/project/456` and parent `organization/123` |
| Scenarios.ProjectBeforeOrganization | google/cloud/security/iam/explain/importer/importer.py:201 | project 456 before its organization aborts at the first record with `ParentNotCached("organization/123")` and an untouched store |
| Scenarios.PolicyOnProject | google/cloud/security/iam/explain/importer/importer.py:250-292 | a one-binding policy on project 456 with `user:alice` and `group:g1` appends one binding naming `user/alice` and `group/g1`, creates the role and both principals |
| Scenarios.MalformedMemberFailsPolicy | google/cloud/security/iam/explain/importer/importer.py:48 | the member string `alice` fails its policy with `MalformedMember("alice")` |

## Left out

- The permissions of a newly created role are a `PermissionSource` parameter. The source draws them at random from a fixed list as a stand-in.
- The ORM session and database are modelled as maps keyed by unique name. Object identity, flushing, autoflush and commit are not modelled, and neither are foreign keys held as objects. A parent is recorded by its local name.
- Resources.ConvertOrganization: the source adds the organization with `session.add`, not `merge`, so a second organization row of the same name would be a database error. The model treats it as an upsert.
- Decoding a policy's JSON document is not modelled: a policy record carries its decoded bindings. A document whose JSON is invalid or has no `bindings` key is outside the model, and so is a binding entry without a `role` or `members` key (the `KeyError` of importer.py:67 and importer.py:72).
- Wall-clock time is not read: each event carries one clock reading, taken after its record is handled. The two `time()` calls of the watchdog check are read as the same instant. Times are reals, with no floating-point rounding.
- The debug `print` of every record and all other I/O are left out.
- `TestImporter` and `EmptyImporter` are left out. They are only reachable through `BySource`, which names them.
- `ServiceConfig` and `test_run` are left out. They are wiring and a manual entry point.
- Names.ToLower: lower-cases ASCII letters only. The importer is Python 2 code. On a byte string `str.lower` is ASCII (locale) bound, as modelled. On a `unicode` member type `lower()` also folds non-ASCII letters, but a type that still holds a non-ASCII letter afterwards makes the byte-string format of the name at importer.py:307 raise `UnicodeEncodeError`. So only letters that fold to ASCII, such as the Kelvin sign U+212A to `k`, reach the store that way, and the model does not fold those.
- Importer.Run: a failing record's partial writes are dropped, and the run reports the state after the last record that succeeded. The source has flushed some writes to the session by then, but it never commits them, because the commit at the end of the run is not reached.
- `RoleCache` and `MemberCache` are left out. They are created, or declared, but never read by the run.
- Importer.Dispatch: a payload of the wrong shape for its kind becomes `PayloadMismatch`. For the resource, policy and membership kinds this stands for the attribute error their converter would raise; which fields are missing is not modelled. A `group` payload is modelled as the group's name string only. The source's `_convert_group` (importer.py:314-317) formats any object into `group/<object>` and fails on no payload shape (only on non-ASCII text, see the Principals.ConvertGroup line), so rejecting a non-string group payload is a restriction of the model, not behaviour of the source.
- The `forseti.Importer` record source is left out. It is not part of this model, and the record stream is given as a sequence.
- Policies.MergeMembers: member strings are treated as text over any characters. In the source, which is Python 2, the decoded policy document (importer.py:83) holds `unicode` strings, and the principal name is built with the byte-string format `'{}/{}'.format` (importer.py:256-257). A member string with a non-ASCII character therefore raises `UnicodeEncodeError` and aborts the run, while the model accepts it. Membership names built at importer.py:307 have the same gap, in Principals.ConvertMembership.
- Principals.ConvertMembership: a `unicode` member type or email, or group email, with a non-ASCII character makes the byte-string name formats at importer.py:299 and importer.py:307 raise `UnicodeEncodeError`. The model stores the principal instead.
- Resource identifiers are treated as text. If the record source hands over a `unicode` identifier with a non-ASCII character, the byte-string name formats of the resource converters (importer.py:160-238) raise `UnicodeEncodeError`, which is not modelled.
- Principals.ConvertGroup: a `unicode` group name with a non-ASCII character makes the byte-string format at importer.py:315 raise `UnicodeEncodeError`. The model stores the group instead.
- Policies.ApplyBinding: "succeeds exactly when" is wider than the source for member strings with non-ASCII characters, for the reason in the Policies.MergeMembers line.
- Policies.ApplyBindings: "succeeds exactly when" is wider than the source for member strings with non-ASCII characters, for the reason in the Policies.MergeMembers line.
- Policies.ConvertPolicy: "succeeds exactly when" is wider than the source for member strings with non-ASCII characters, for the reason in the Policies.MergeMembers line.

=== FILE: errors.dfy ===
/** Failure-compatible wrappers and the error taxonomy of one import run. */
module Errors {

  datatype Option<+T> = None | Some(value: T)

  /** Every way a run of the Forseti importer can fail. Each one is fatal:
      the run stops at the record that raised it. */
  datatype ImportError =
      /** A folder, project, bucket or SQL instance names a parent key that
          is not (yet) in the in-run resource cache (a `KeyError`). */
    | ParentNotCached(key: string)
      /** A policy refers to a resource that the store does not hold
          (the point query `one()` finds no row). */
    | ResourceNotFound(name: string)
      /** A policy member string has no `:` (the two-way unpacking of the
          split fails). */
    | MalformedMember(member: string)
      /** A record kind outside the handled kinds and the ignored kind. */
    | UnsupportedKind(kind: string)
      /** A record whose payload lacks the fields the converter for its kind
          reads (an attribute lookup failure). */
    | PayloadMismatch(kind: string)

  datatype Result<+T> = Ok(value: T) | Err(error: ImportError) {

    predicate IsFailure() {
      Err?
    }

    function PropagateFailure<U>(): Result<U>
      requires Err?
    {
      Err(error)
    }

    function Extract(): T
      requires Ok?
    {
      value
    }
  }
}

=== FILE: importer.dfy ===
/** The Forseti importer's run: records are dispatched by kind to the
    converters in stream order, the model is marked in progress before the
    first record and done only after the last, and the watchdog is kicked
    whenever more than ten seconds have passed since the previous kick. */
module Importer {
  import opened Errors
  import opened Names
  import opened Store
  import opened Resources
  import opened Principals
  import opened Policies

  /** What a record carries, by the converter that reads it. `OtherPayload`
      stands for anything none of the converters can read. */
  datatype Payload =
    | OrganizationPayload(org: Organization)
    | FolderPayload(folder: Folder)
    | ProjectPayload(project: Project)
    | BucketPayload(bucket: Bucket)
    | SqlInstancePayload(instance: SqlInstance)
    | PolicyPayload(policy: PolicyRecord)
    | GroupPayload(email: string)
    | MembershipPayload(member: GroupMember, groups: seq<string>)
    | OtherPayload

  /** One `(kind, payload)` pair of the inventory stream. */
  datatype Record = Record(kind: string, payload: Payload)

  /** A record together with the clock reading the run takes right after
      handling it. */
  datatype Event = Event(record: Record, clock: real)

  const OrganizationsKind: string := "organizations"
  const FoldersKind: string := "folders"
  const ProjectsKind: string := "projects"
  const BucketsKind: string := "buckets"
  const SqlInstancesKind: string := "cloudsqlinstances"
  const PolicyKind: string := "policy"
  const GroupKind: string := "group"
  const MembershipKind: string := "membership"

  /** The one kind that is known but deliberately skipped. */
  const IgnoredKind: string := "customer"

  const HandledKinds: set<string> :=
    {OrganizationsKind, FoldersKind, ProjectsKind, BucketsKind, SqlInstancesKind,
     PolicyKind, GroupKind, MembershipKind}

  /** The payload is the one the converter for the record's kind reads. */
  predicate PayloadFits(rec: Record) {
    || (rec.kind == OrganizationsKind && rec.payload.OrganizationPayload?)
    || (rec.kind == FoldersKind && rec.payload.FolderPayload?)
    || (rec.kind == ProjectsKind && rec.payload.ProjectPayload?)
    || (rec.kind == BucketsKind && rec.payload.BucketPayload?)
    || (rec.kind == SqlInstancesKind && rec.payload.SqlInstancePayload?)
    || (rec.kind == PolicyKind && rec.payload.PolicyPayload?)
    || (rec.kind == GroupKind && rec.payload.GroupPayload?)
    || (rec.kind == MembershipKind && rec.payload.MembershipPayload?)
  }

  /** Hands one record to the converter for its kind. */
  function Dispatch(env: Env, rec: Record, perms: PermissionSource): (r: Result<Env>)
    ensures rec.kind == IgnoredKind ==> r == Ok(env)
    ensures rec.kind !in HandledKinds && rec.kind != IgnoredKind ==> r == Err(UnsupportedKind(rec.kind))
    ensures rec.kind in HandledKinds && !PayloadFits(rec) ==> r == Err(PayloadMismatch(rec.kind))
    ensures rec.kind in HandledKinds && r.Err? ==> !r.error.UnsupportedKind?
    ensures PayloadFits(rec) && r.Err? ==> !r.error.PayloadMismatch?
    ensures r.Ok? ==> Grows(env.store, r.value.store)
  {
    var k := rec.kind;
    var p := rec.payload;
    if k == OrganizationsKind then
      if p.OrganizationPayload? then Ok(ConvertOrganization(env, p.org)) else Err(PayloadMismatch(k))
    else if k == FoldersKind then
      if p.FolderPayload? then ConvertFolder(env, p.folder) else Err(PayloadMismatch(k))
    else if k == ProjectsKind then
      if p.ProjectPayload? then ConvertProject(env, p.project) else Err(PayloadMismatch(k))
    else if k == BucketsKind then
      if p.BucketPayload? then ConvertBucket(env, p.bucket) else Err(PayloadMismatch(k))
    else if k == SqlInstancesKind then
      if p.SqlInstancePayload? then ConvertSqlInstance(env, p.instance) else Err(PayloadMismatch(k))
    else if k == PolicyKind then
      if p.PolicyPayload? then
        match ConvertPolicy(env.store, p.policy, perms)
        case Err(e) => Err(e)
        case Ok(s) => Ok(env.(store := s))
      else Err(PayloadMismatch(k))
    else if k == GroupKind then
      if p.GroupPayload? then Ok(env.(store := ConvertGroup(env.store, p.email))) else Err(PayloadMismatch(k))
    else if k == MembershipKind then
      if p.MembershipPayload? then Ok(env.(store := ConvertMembership(env.store, p.member, p.groups)))
      else Err(PayloadMismatch(k))
    else if k == IgnoredKind then Ok(env)
    else Err(UnsupportedKind(k))
  }

  /** The lifecycle of a model. A model left in progress with a stale
      watchdog is declared broken by a supervisor outside this model. */
  datatype Status = Created | InProgress | Done

  /** The persisted model row: its status and the time of its last
      watchdog kick. */
  datatype ModelRecord = ModelRecord(status: Status, watchdog: real)

  /** Seconds that must have passed since the last kick before the next. */
  const KickInterval: real := 10.0

  /** Everything a run carries from one record to the next; `kicks` logs
      every watchdog write of this run in order. */
  datatype RunState = RunState(env: Env, model: ModelRecord, lastKick: real, kicks: seq<real>)

  /** The watchdog check after each record: kick only when more than the
      interval has passed since the last kick. */
  function Heartbeat(st: RunState, now: real): (t: RunState)
    ensures now - t.lastKick <= KickInterval
    ensures t.env == st.env && t.model.status == st.model.status
    ensures t == st || (t.lastKick == now && now - st.lastKick > KickInterval
                        && t.kicks == st.kicks + [now] && t.model.watchdog == now)
    ensures t != st ==> now - st.lastKick > KickInterval
  {
    if now - st.lastKick > KickInterval then
      st.(model := st.model.(watchdog := now), lastKick := now, kicks := st.kicks + [now])
    else st
  }

  /** Where processing a stream prefix got to: still running, or stopped by
      the error of the record at index `at`. */
  datatype Progress = Running(state: RunState) | Stopped(state: RunState, at: nat, error: ImportError)

  /** The record loop, as a left fold over the events: each record is
      dispatched, then the watchdog is checked; the first error stops the
      loop with the state from before that record. */
  function Process(st0: RunState, evs: seq<Event>, perms: PermissionSource): (p: Progress)
    ensures p.state.model.status == st0.model.status
    ensures p.Stopped? ==> p.at < |evs|
    decreases |evs|
  {
    if |evs| == 0 then Running(st0)
    else
      match Process(st0, evs[..|evs| - 1], perms)
      case Stopped(st, at, e) => Stopped(st, at, e)
      case Running(st) =>
        var ev := evs[|evs| - 1];
        match Dispatch(st.env, ev.record, perms)
        case Err(e) => Stopped(st, |evs| - 1, e)
        case Ok(env) => Running(Heartbeat(st.(env := env), ev.clock))
  }

  /** The state right after the run starts: an empty cache, the model marked
      in progress and kicked once at `start`. */
  function StartRun(model: ModelRecord, store: Store, start: real): (st: RunState)
    ensures st.model.status == InProgress && st.env.cache == map[]
  {
    RunState(Env(map[], store), model.(status := InProgress, watchdog := start), start, [start])
  }

  datatype Outcome = Completed(state: RunState) | Aborted(state: RunState, at: nat, error: ImportError)

  /** One run of the importer over a finite record stream. */
  function Run(model: ModelRecord, store: Store, start: real, evs: seq<Event>, perms: PermissionSource): (o: Outcome)
    ensures o.Completed? ==> o.state.model.status == Done
    ensures o.Aborted? ==> o.state.model.status == InProgress && o.at < |evs|
  {
    match Process(StartRun(model, store, start), evs, perms)
    case Running(st) => Completed(st.(model := st.model.(status := Done)))
    case Stopped(st, at, e) => Aborted(st, at, e)
  }

  /** The record loop written as the source writes it, pulling one record
      at a time; it computes exactly the fold `Run`. */
  method RunImport(model: ModelRecord, store: Store, start: real, evs: seq<Event>, perms: PermissionSource)
    returns (o: Outcome)
    ensures o == Run(model, store, start, evs, perms)
  {
    var st := StartRun(model, store, start);
    var i := 0;
    while i < |evs|
      invariant 0 <= i <= |evs|
      invariant Process(StartRun(model, store, start), evs[..i], perms) == Running(st)
    {
      var ev := evs[i];
      assert evs[..i + 1][..i] == evs[..i];
      var r := Dispatch(st.env, ev.record, perms);
      if r.Err? {
        ProcessStoppedExtends(StartRun(model, store, start), evs, i + 1, perms);
        return Aborted(st, i, r.error);
      }
      st := Heartbeat(st.(env := r.value), ev.clock);
      i := i + 1;
    }
    assert evs[..i] == evs;
    st := st.(model := st.model.(status := Done));
    o := Completed(st);
  }

  /** Once a prefix of the stream stops the loop, the whole stream stops it
      in the same place. */
  lemma {:induction false} ProcessStoppedExtends(st0: RunState, evs: seq<Event>, n: nat, perms: PermissionSource)
    requires n <= |evs|
    requires Process(st0, evs[..n], perms).Stopped?
    ensures Process(st0, evs, perms) == Process(st0, evs[..n], perms)
    decreases |evs|
  {
    if n < |evs| {
      var init := evs[..|evs| - 1];
      assert init[..n] == evs[..n];
      ProcessStoppedExtends(st0, init, n, perms);
    } else {
      assert evs[..n] == evs;
    }
  }

  /** The importers a client may ask for by name. */
  datatype ImporterKind = TestImporter | ForsetiImporter | EmptyImporter

  function SourceName(k: ImporterKind): string {
    match k
    case TestImporter => "TEST"
    case ForsetiImporter => "FORSETI"
    case EmptyImporter => "EMPTY"
  }

  /** Resolves a client-supplied import source; any other name is a lookup
      failure. */
  function BySource(source: string): (r: Option<ImporterKind>)
    ensures r.Some? <==> source in {"TEST", "FORSETI", "EMPTY"}
    ensures r.Some? ==> SourceName(r.value) == source
  {
    if source == "TEST" then Some(TestImporter)
    else if source == "FORSETI" then Some(ForsetiImporter)
    else if source == "EMPTY" then Some(EmptyImporter)
    else None
  }

  /** Every importer is found under its own name. */
  lemma BySourceRoundTrip(k: ImporterKind)
    ensures BySource(SourceName(k)) == Some(k)
  {
  }
}

=== FILE: members.dfy ===
/** Policy member strings of the form `"type:name"`. */
module Members {
  import opened Errors
  import Names

  datatype Member = Member(mtype: string, name: string)

  /** The position of the first occurrence of `c` in `s`, if there is one. */
  function FirstIndex(s: string, c: char): (r: Option<nat>)
    ensures r.None? <==> c !in s
    ensures r.Some? ==> r.value < |s| && s[r.value] == c && c !in s[..r.value]
  {
    if |s| == 0 then None
    else if s[0] == c then Some(0)
    else match FirstIndex(s[1..], c)
      case None => None
      case Some(i) =>
        assert s[..i + 1] == [s[0]] + s[1..][..i];
        Some(i + 1)
  }

  /** Splits a member string at its first `:` only, so the name part may
      itself contain `:`; a string without any `:` is malformed. */
  function ParseMember(s: string): (r: Result<Member>)
    ensures r.Ok? <==> ':' in s
    ensures r.Err? ==> r.error == MalformedMember(s)
  {
    match FirstIndex(s, ':')
    case None => Err(MalformedMember(s))
    case Some(i) => Ok(Member(s[..i], s[i + 1..]))
  }

  /** A successful parse splits at the first `:`: the type holds no `:`,
      and type, `:` and name spell the member string again. */
  lemma ParseMemberSplits(s: string)
    requires ':' in s
    ensures var m := ParseMember(s).value;
      ':' !in m.mtype && s == m.mtype + ":" + m.name
  {
    var i := FirstIndex(s, ':').value;
    assert s == s[..i] + ":" + s[i + 1..];
  }

  /** The member string a member is written as in a policy document. */
  function FormatMember(m: Member): string {
    m.mtype + ":" + m.name
  }

  /** The principal name a policy member is stored under: `"type/name"`. */
  function PrincipalName(m: Member): string {
    Names.LocalName(m.mtype, m.name)
  }

  /** Parsing undoes formatting whenever the type holds no `:`, whatever the
      name holds. */
  lemma ParseFormat(m: Member)
    requires ':' !in m.mtype
    ensures ParseMember(FormatMember(m)) == Ok(m)
  {
    var s := FormatMember(m);
    assert s[|m.mtype|] == ':';
    var r := ParseMember(s);
    ParseMemberSplits(s);
    Names.SplitUnique(r.value.mtype, r.value.name, m.mtype, m.name, ':');
  }

  /** Formatting undoes a successful parse. */
  lemma FormatParse(s: string)
    requires ParseMember(s).Ok?
    ensures FormatMember(ParseMember(s).value) == s
  {
    ParseMemberSplits(s);
  }
}

=== FILE: names.dfy ===
/** Names of resources and principals: local names `"type/id"`, hierarchical
    full names, and the ASCII lower-casing applied to member types. */
module Names {

  const OrganizationType: string := "organization"
  const FolderType: string := "folder"
  const ProjectType: string := "project"
  const BucketType: string := "bucket"
  const SqlInstanceType: string := "cloudsqlinstance"
  const GroupType: string := "group"

  /** The local name `"type/id"` of a resource or a principal. */
  function LocalName(kind: string, id: string): string {
    kind + "/" + id
  }

  /** The full name of a node whose parent has full name `parentFull`. */
  function ChildFullName(parentFull: string, local: string): string {
    parentFull + "/" + local
  }

  /** `name` is a local name of the given type. */
  predicate IsTyped(name: string, kind: string) {
    kind + "/" <= name
  }

  /** Local names of the resources that can have children: organizations,
      folders and projects. */
  predicate IsContainerName(name: string) {
    IsTyped(name, OrganizationType) || IsTyped(name, FolderType) || IsTyped(name, ProjectType)
  }

  lemma LocalNameIsTyped(kind: string, id: string)
    ensures IsTyped(LocalName(kind, id), kind)
  {
    assert LocalName(kind, id) == (kind + "/") + id;
  }

  /** Joining two parts around a separator that does not occur in the first
      part can be undone: the first occurrence of the separator splits the
      string back into the parts. */
  lemma {:induction false} SplitUnique(a1: string, b1: string, a2: string, b2: string, sep: char)
    requires sep !in a1 && sep !in a2
    requires a1 + [sep] + b1 == a2 + [sep] + b2
    ensures a1 == a2 && b1 == b2
  {
    var s := a1 + [sep] + b1;
    var k := if |a1| <= |a2| then |a1| else |a2|;
    assert s[k] == sep;
    assert |a1| == |a2|;
    assert a1 == s[..|a1|] == a2;
    assert b1 == s[|a1| + 1..] == b2;
  }

  /** Local names are unambiguous when the type holds no `/`. */
  lemma LocalNameInjective(t1: string, i1: string, t2: string, i2: string)
    requires '/' !in t1 && '/' !in t2
    requires LocalName(t1, i1) == LocalName(t2, i2)
    ensures t1 == t2 && i1 == i2
  {
    SplitUnique(t1, i1, t2, i2, '/');
  }

  /** The full name spelled by a root-first sequence of local names. */
  function JoinPath(segs: seq<string>): string
    requires |segs| > 0
    decreases |segs|
  {
    if |segs| == 1 then segs[0]
    else ChildFullName(JoinPath(segs[..|segs| - 1]), segs[|segs| - 1])
  }

  /** `full` is a well-formed full name ending in the local name `leaf`: it
      joins a chain of local names that starts at an organization, passes
      only through containers, and ends with `leaf`. */
  ghost predicate IsPath(full: string, leaf: string) {
    exists segs: seq<string> ::
      && |segs| > 0
      && IsTyped(segs[0], OrganizationType)
      && (forall i :: 0 <= i < |segs| - 1 ==> IsContainerName(segs[i]))
      && segs[|segs| - 1] == leaf
      && JoinPath(segs) == full
  }

  lemma RootIsPath(orgName: string)
    requires IsTyped(orgName, OrganizationType)
    ensures IsPath(orgName, orgName)
  {
    var segs := [orgName];
    assert JoinPath(segs) == orgName;
  }

  /** Appending a local name below a container keeps a full name well formed. */
  lemma ChildIsPath(parentFull: string, parentLeaf: string, leaf: string)
    requires IsPath(parentFull, parentLeaf)
    requires IsContainerName(parentLeaf)
    ensures IsPath(ChildFullName(parentFull, leaf), leaf)
  {
    var segs: seq<string> :|
      && |segs| > 0
      && IsTyped(segs[0], OrganizationType)
      && (forall i :: 0 <= i < |segs| - 1 ==> IsContainerName(segs[i]))
      && segs[|segs| - 1] == parentLeaf
      && JoinPath(segs) == parentFull;
    var segs' := segs + [leaf];
    assert segs'[..|segs'| - 1] == segs;
    assert JoinPath(segs') == ChildFullName(parentFull, leaf);
    assert forall i :: 0 <= i < |segs'| - 1 ==> IsContainerName(segs'[i]);
  }

  /** A joined path begins with its first local name. */
  lemma {:induction false} JoinPathStartsWithRoot(segs: seq<string>)
    requires |segs| > 0
    ensures segs[0] <= JoinPath(segs)
    decreases |segs|
  {
    if |segs| > 1 {
      var init := segs[..|segs| - 1];
      JoinPathStartsWithRoot(init);
      assert init[0] == segs[0];
      var p := JoinPath(init);
      assert JoinPath(segs) == p + ("/" + segs[|segs| - 1]);
      assert JoinPath(segs)[..|p|] == p;
    }
  }

  /** Every well-formed full name starts with an organization's local name
      and ends with its own local name. */
  lemma PathShape(full: string, leaf: string)
    requires IsPath(full, leaf)
    ensures OrganizationType + "/" <= full
    ensures |leaf| <= |full| && full[|full| - |leaf|..] == leaf
  {
    var segs: seq<string> :|
      && |segs| > 0
      && IsTyped(segs[0], OrganizationType)
      && (forall i :: 0 <= i < |segs| - 1 ==> IsContainerName(segs[i]))
      && segs[|segs| - 1] == leaf
      && JoinPath(segs) == full;
    JoinPathStartsWithRoot(segs);
    var o := OrganizationType + "/";
    assert segs[0][..|o|] == o;
    assert full[..|o|] == o;
    if |segs| > 1 {
      var p := JoinPath(segs[..|segs| - 1]);
      assert full == (p + "/") + leaf;
    }
  }

  function LowerChar(c: char): (d: char)
  {
    if 'A' <= c <= 'Z' then (c as int + 32) as char else c
  }

  /** ASCII lower-casing, character by character. */
  function ToLower(s: string): (r: string)
    ensures |r| == |s|
    ensures forall i :: 0 <= i < |s| ==> r[i] == LowerChar(s[i])
  {
    if s == [] then [] else [LowerChar(s[0])] + ToLower(s[1..])
  }

  /** Lower-casing leaves no upper-case letter behind and is idempotent. */
  lemma ToLowerIdempotent(s: string)
    ensures forall i :: 0 <= i < |s| ==> !('A' <= ToLower(s)[i] <= 'Z')
    ensures ToLower(ToLower(s)) == ToLower(s)
  {
  }

  /** Lower-casing never introduces a `/`, so a lower-cased type still
      yields an unambiguous local name. */
  lemma ToLowerKeepsSlashFree(s: string)
    requires '/' !in s
    ensures '/' !in ToLower(s)
  {
  }
}

=== FILE: policies.dfy ===
/** The policy converter of the Forseti importer: an IAM policy attached to
    a resource becomes roles, principals and one binding per policy
    binding. */
module Policies {
  import opened Errors
  import opened Names
  import opened Store
  import opened Members

  /** One entry of a policy's `bindings` list. */
  datatype BindingSpec = BindingSpec(role: string, members: seq<string>)

  /** A decoded policy document. */
  datatype PolicyDoc = PolicyDoc(bindings: seq<BindingSpec>)

  /** A policy record: the `(type, id)` of the resource it is attached to and
      its document. */
  datatype PolicyRecord = PolicyRecord(resourceType: string, resourceId: string, doc: PolicyDoc)

  /** Where the permissions of a newly created role come from. */
  type PermissionSource = string -> set<string>

  predicate MembersWellFormed(ms: seq<string>) {
    forall i :: 0 <= i < |ms| ==> ':' in ms[i]
  }

  predicate PolicyWellFormed(bs: seq<BindingSpec>) {
    forall j :: 0 <= j < |bs| ==> MembersWellFormed(bs[j].members)
  }

  /** The local name `"type/id"` of the resource a policy is attached to. */
  function PolicyResourceName(p: PolicyRecord): string {
    LocalName(p.resourceType, p.resourceId)
  }

  /** A policy member becomes a principal with the member's type and name
      and no parent list. */
  function MemberPrincipal(m: Member): Principal {
    Principal(PrincipalName(m), m.name, m.mtype, {})
  }

  /** The principal names of well-formed member strings, in order. */
  function MemberNames(ms: seq<string>): seq<string>
    requires MembersWellFormed(ms)
  {
    seq(|ms|, i requires 0 <= i < |ms| => PrincipalName(ParseMember(ms[i]).value))
  }

  /** The bindings a well-formed policy document adds, one per entry, in
      document order. */
  function PolicyBindings(resName: string, bs: seq<BindingSpec>): seq<Binding>
    requires PolicyWellFormed(bs)
  {
    seq(|bs|, j requires 0 <= j < |bs| => Binding(resName, bs[j].role, MemberNames(bs[j].members)))
  }

  /** The set of principal names of well-formed member strings. */
  function MemberNameSet(ms: seq<string>): set<string>
    requires MembersWellFormed(ms)
    decreases |ms|
  {
    if ms == [] then {}
    else
      assert forall i :: 0 <= i < |ms| - 1 ==> ms[1..][i] == ms[i + 1];
      {PrincipalName(ParseMember(ms[0]).value)} + MemberNameSet(ms[1..])
  }

  /** The member at index `i` is the last one with its principal name. */
  predicate LastNamed(ms: seq<string>, i: nat)
    requires MembersWellFormed(ms) && i < |ms|
  {
    forall j :: i < j < |ms| ==> MemberNames(ms)[j] != MemberNames(ms)[i]
  }

  /** No member type holds a `/`, so a principal name determines its member. */
  predicate MemberTypesSlashFree(ms: seq<string>)
    requires MembersWellFormed(ms)
  {
    forall i :: 0 <= i < |ms| ==> '/' !in ParseMember(ms[i]).value.mtype
  }

  /** How the names of a member list relate to those of its tail. */
  lemma MemberNamesCons(ms: seq<string>)
    requires |ms| > 0
    ensures MembersWellFormed(ms) <==> ':' in ms[0] && MembersWellFormed(ms[1..])
    ensures MembersWellFormed(ms) ==>
      && MemberNameSet(ms) == {PrincipalName(ParseMember(ms[0]).value)} + MemberNameSet(ms[1..])
      && MemberNames(ms)[0] == PrincipalName(ParseMember(ms[0]).value)
      && (forall i :: 0 <= i < |ms| - 1 ==> MemberNames(ms)[i + 1] == MemberNames(ms[1..])[i])
  {
    assert forall i :: 0 <= i < |ms| - 1 ==> ms[1..][i] == ms[i + 1];
  }

  /** The name set holds exactly the names of the name sequence. */
  lemma {:induction false} MemberNameSetHolds(ms: seq<string>)
    requires MembersWellFormed(ms)
    ensures forall n :: n in MemberNameSet(ms) <==> n in MemberNames(ms)
    decreases |ms|
  {
    if ms != [] {
      MemberNamesCons(ms);
      MemberNameSetHolds(ms[1..]);
      assert MemberNames(ms) == [MemberNames(ms)[0]] + MemberNames(ms[1..]);
    }
  }

  /** Upserts the principal of each member string in order and returns their
      names; a malformed member string fails the whole binding. */
  function MergeMembers(s: Store, ms: seq<string>): (r: Result<(Store, seq<string>)>)
    ensures r.Ok? <==> MembersWellFormed(ms)
    ensures r.Err? ==> r.error.MalformedMember?
    ensures r.Ok? ==> r.value.0.resources == s.resources && r.value.0.roles == s.roles
    ensures r.Ok? ==> r.value.0.permissions == s.permissions && r.value.0.bindings == s.bindings
    ensures r.Ok? ==> r.value.0.principals.Keys == s.principals.Keys + MemberNameSet(ms)
    ensures r.Ok? ==> forall n :: n in s.principals && n !in MemberNameSet(ms) ==>
                                   r.value.0.principals[n] == s.principals[n]
    decreases |ms|
  {
    if ms == [] then Ok((s, []))
    else
      MemberNamesCons(ms);
      var m :- ParseMember(ms[0]);
      var rest :- MergeMembers(MergePrincipal(s, MemberPrincipal(m), false), ms[1..]);
      Ok((rest.0, [PrincipalName(m)] + rest.1))
  }

  /** The names returned are the members' principal names, in order. */
  lemma {:induction false} MergeMembersNames(s: Store, ms: seq<string>)
    requires MembersWellFormed(ms)
    ensures MergeMembers(s, ms).value.1 == MemberNames(ms)
    decreases |ms|
  {
    if ms != [] {
      MemberNamesCons(ms);
      var m := ParseMember(ms[0]).value;
      var s1 := MergePrincipal(s, MemberPrincipal(m), false);
      MergeMembersNames(s1, ms[1..]);
      var rest := MergeMembers(s1, ms[1..]).value;
      assert MergeMembers(s, ms).value.1 == [PrincipalName(m)] + rest.1;
      var names := MemberNames(ms);
      assert names == [names[0]] + rest.1;
    }
  }

  /** Each name returned is a principal afterwards. */
  lemma {:induction false} MergeMembersPrincipals(s: Store, ms: seq<string>)
    requires MembersWellFormed(ms)
    ensures forall i :: 0 <= i < |MergeMembers(s, ms).value.1| ==>
              MergeMembers(s, ms).value.1[i] in MergeMembers(s, ms).value.0.principals
    decreases |ms|
  {
    if ms != [] {
      var m := ParseMember(ms[0]).value;
      var s1 := MergePrincipal(s, MemberPrincipal(m), false);
      assert ':' in ms[0];
      assert MembersWellFormed(ms[1..]) by {
        forall i | 0 <= i < |ms| - 1 ensures ':' in ms[1..][i] {
          assert ms[1..][i] == ms[i + 1];
        }
      }
      MergeMembersPrincipals(s1, ms[1..]);
      var rest := MergeMembers(s1, ms[1..]).value;
      var r := MergeMembers(s, ms).value;
      assert r == (rest.0, [PrincipalName(m)] + rest.1);
      assert PrincipalName(m) in rest.0.principals;
      forall i | 0 <= i < |r.1| ensures r.1[i] in r.0.principals {
        if i > 0 {
          assert r.1[i] == rest.1[i - 1];
          assert rest.1[i - 1] in rest.0.principals;
        } else {
          assert r.1[0] == PrincipalName(m);
        }
      }
    }
  }

  /** What a member list leaves among the principals: the last member of
      each principal name is stored with its type and name, and every member
      principal keeps the parents it had before (none if it is new). */
  lemma {:induction false} MergeMembersStores(s: Store, ms: seq<string>)
    requires MembersWellFormed(ms)
    ensures forall i :: 0 <= i < |ms| && LastNamed(ms, i) ==>
              && MemberNames(ms)[i] in MergeMembers(s, ms).value.0.principals
              && MergeMembers(s, ms).value.0.principals[MemberNames(ms)[i]]
              == MemberPrincipal(ParseMember(ms[i]).value).(parents := KeptParents(s, MemberNames(ms)[i]))
    ensures forall n :: n in MemberNameSet(ms) ==> MergeMembers(s, ms).value.0.principals[n].parents == KeptParents(s, n)
    decreases |ms|
  {
    if ms != [] {
      MemberNamesCons(ms);
      var m := ParseMember(ms[0]).value;
      var n0 := PrincipalName(m);
      var s1 := MergePrincipal(s, MemberPrincipal(m), false);
      MergePrincipalStores(s, MemberPrincipal(m), false);
      MergePrincipalKeepsParents(s, MemberPrincipal(m));
      var rest := ms[1..];
      MergeMembersStores(s1, rest);
      var t := MergeMembers(s, ms).value.0;
      assert t == MergeMembers(s1, rest).value.0;
      var names := MemberNames(ms);
      MemberNameSetHolds(ms);
      forall i | 0 <= i < |ms| && LastNamed(ms, i)
        ensures names[i] in t.principals && t.principals[names[i]] == MemberPrincipal(ParseMember(ms[i]).value).(parents := KeptParents(s, names[i]))
      {
        if i == 0 {
          assert n0 !in MemberNameSet(rest) by {
            MemberNameSetHolds(rest);
            forall j | 0 <= j < |rest| ensures MemberNames(rest)[j] != n0 {
              assert names[j + 1] != names[0];
            }
          }
        } else {
          assert rest[i - 1] == ms[i];
          assert LastNamed(rest, i - 1) by {
            forall j | i - 1 < j < |rest| ensures MemberNames(rest)[j] != MemberNames(rest)[i - 1] {
              assert names[j + 1] != names[i];
            }
          }
        }
      }
    }
  }

  /** When no member type holds a `/`, every member is stored with its own
      type and name, whatever its position. */
  lemma {:induction false} MergeMembersSlashFree(s: Store, ms: seq<string>)
    requires MembersWellFormed(ms) && MemberTypesSlashFree(ms)
    ensures forall i :: 0 <= i < |ms| ==>
              && MemberNames(ms)[i] in MergeMembers(s, ms).value.0.principals
              && MergeMembers(s, ms).value.0.principals[MemberNames(ms)[i]]
              == MemberPrincipal(ParseMember(ms[i]).value).(parents := KeptParents(s, MemberNames(ms)[i]))
    decreases |ms|
  {
    if ms != [] {
      MemberNamesCons(ms);
      var m := ParseMember(ms[0]).value;
      var n0 := PrincipalName(m);
      var s1 := MergePrincipal(s, MemberPrincipal(m), false);
      MergePrincipalStores(s, MemberPrincipal(m), false);
      MergePrincipalKeepsParents(s, MemberPrincipal(m));
      var rest := ms[1..];
      assert MemberTypesSlashFree(rest) by {
        forall i | 0 <= i < |rest| ensures '/' !in ParseMember(rest[i]).value.mtype {
          assert rest[i] == ms[i + 1];
        }
      }
      MergeMembersSlashFree(s1, rest);
      var t := MergeMembers(s, ms).value.0;
      assert t == MergeMembers(s1, rest).value.0;
      var names := MemberNames(ms);
      MemberNameSetHolds(ms);
      forall i | 0 <= i < |ms|
        ensures names[i] in t.principals && t.principals[names[i]] == MemberPrincipal(ParseMember(ms[i]).value).(parents := KeptParents(s, names[i]))
      {
        if i == 0 {
          if n0 in MemberNameSet(rest) {
            MemberNameSetHolds(rest);
            var j :| 0 <= j < |rest| && MemberNames(rest)[j] == n0;
            var mj := ParseMember(rest[j]).value;
            assert rest[j] == ms[j + 1];
            LocalNameInjective(mj.mtype, mj.name, m.mtype, m.name);
          }
        } else {
          assert rest[i - 1] == ms[i];
        }
      }
    }
  }

  /** A failing binding names the first malformed member string. */
  lemma {:induction false} MergeMembersFirstError(s: Store, ms: seq<string>)
    requires MergeMembers(s, ms).Err?
    ensures exists i :: 0 <= i < |ms| && ':' !in ms[i] && MembersWellFormed(ms[..i])
                        && MergeMembers(s, ms).error == MalformedMember(ms[i])
    decreases |ms|
  {
    if ':' !in ms[0] {
      assert ms[..0] == [];
      assert MergeMembers(s, ms).error == MalformedMember(ms[0]);
    } else {
      var m := ParseMember(ms[0]).value;
      var s1 := MergePrincipal(s, MemberPrincipal(m), false);
      MergeMembersFirstError(s1, ms[1..]);
      var i :| 0 <= i < |ms| - 1 && ':' !in ms[1..][i] && MembersWellFormed(ms[1..][..i])
               && MergeMembers(s1, ms[1..]).error == MalformedMember(ms[1..][i]);
      assert ms[..i + 1] == [ms[0]] + ms[1..][..i];
      assert MembersWellFormed(ms[..i + 1]);
    }
  }

  /** One policy binding: its members, then the role (created with the
      permission source's permissions only if absent), then the point query
      for the resource, then the new binding. */
  function ApplyBinding(s: Store, resName: string, b: BindingSpec, perms: PermissionSource): (r: Result<Store>)
    ensures r.Ok? <==> MembersWellFormed(b.members) && resName in s.resources
    ensures r.Err? ==> r.error.MalformedMember? || r.error == ResourceNotFound(resName)
    ensures r.Err? && MembersWellFormed(b.members) ==> r.error == ResourceNotFound(resName)
    ensures r.Ok? ==> Grows(s, r.value) && r.value.resources == s.resources
    ensures r.Ok? ==> b.role in r.value.roles
    ensures r.Ok? ==> r.value.roles.Keys == s.roles.Keys + {b.role}
    ensures r.Ok? && b.role !in s.roles ==> r.value.roles[b.role] == Role(b.role, perms(b.role))
    ensures r.Ok? ==> r.value.permissions == s.permissions + (if b.role in s.roles then {} else perms(b.role))
  {
    var (s1, names) :- MergeMembers(s, b.members);
    var s2 := GetOrCreateRole(s1, b.role, perms(b.role));
    if resName !in s2.resources then Err(ResourceNotFound(resName))
    else Ok(AddBinding(s2, Binding(resName, b.role, names)))
  }

  /** A successful binding appends exactly the binding of its entry and
      makes each of its members a principal. */
  lemma ApplyBindingAdds(s: Store, resName: string, b: BindingSpec, perms: PermissionSource)
    requires ApplyBinding(s, resName, b, perms).Ok?
    ensures var t := ApplyBinding(s, resName, b, perms).value;
      && t.bindings == s.bindings + [Binding(resName, b.role, MemberNames(b.members))]
      && forall k :: 0 <= k < |b.members| ==> MemberNames(b.members)[k] in t.principals
  {
    MergeMembersNames(s, b.members);
    MergeMembersPrincipals(s, b.members);
  }

  /** A successful binding adds exactly its members' principal names and
      leaves every other principal as it was; a member principal keeps the
      parents it had. */
  lemma ApplyBindingPrincipals(s: Store, resName: string, b: BindingSpec, perms: PermissionSource)
    requires ApplyBinding(s, resName, b, perms).Ok?
    ensures MembersWellFormed(b.members)
    ensures var t := ApplyBinding(s, resName, b, perms).value;
      && t.principals.Keys == s.principals.Keys + MemberNameSet(b.members)
      && (forall n :: n in s.principals && n !in MemberNameSet(b.members) ==> t.principals[n] == s.principals[n])
      && (forall n :: n in MemberNameSet(b.members) ==> t.principals[n].parents == KeptParents(s, n))
  {
    MergeMembersStores(s, b.members);
  }

  /** Every principal name a well-formed policy document's members give. */
  function PolicyMemberNames(bs: seq<BindingSpec>): set<string>
    requires PolicyWellFormed(bs)
    decreases |bs|
  {
    if bs == [] then {}
    else
      assert forall j :: 0 <= j < |bs| - 1 ==> bs[1..][j] == bs[j + 1];
      MemberNameSet(bs[0].members) + PolicyMemberNames(bs[1..])
  }

  /** The role names a policy document's entries name. */
  function PolicyRoles(bs: seq<BindingSpec>): set<string>
    decreases |bs|
  {
    if bs == [] then {} else {bs[0].role} + PolicyRoles(bs[1..])
  }

  /** The role set holds exactly the roles of the document's entries. */
  lemma {:induction false} PolicyRolesHolds(bs: seq<BindingSpec>)
    ensures forall j :: 0 <= j < |bs| ==> bs[j].role in PolicyRoles(bs)
    ensures forall n :: n in PolicyRoles(bs) ==> exists j :: 0 <= j < |bs| && bs[j].role == n
    decreases |bs|
  {
    if bs != [] {
      PolicyRolesHolds(bs[1..]);
      assert forall j :: 0 < j < |bs| ==> bs[1..][j - 1] == bs[j];
      forall n | n in PolicyRoles(bs) ensures exists j :: 0 <= j < |bs| && bs[j].role == n {
        if n != bs[0].role {
          var j :| 0 <= j < |bs| - 1 && bs[1..][j].role == n;
          assert bs[j + 1].role == n;
        }
      }
    }
  }

  /** Every permission the permission source gives to some role of `roles`. */
  function PermissionsOf(roles: set<string>, perms: PermissionSource): set<string> {
    set n, q | n in roles && q in perms(n) :: q
  }

  /** Permissions of a union of role sets are the union of their permissions. */
  lemma PermissionsOfUnion(a: set<string>, b: set<string>, perms: PermissionSource)
    ensures PermissionsOf(a + b, perms) == PermissionsOf(a, perms) + PermissionsOf(b, perms)
  {
  }

  /** The permissions of one role are the source's permissions for it. */
  lemma PermissionsOfOne(n: string, perms: PermissionSource)
    ensures PermissionsOf({n}, perms) == perms(n)
  {
    forall q | q in perms(n) ensures q in PermissionsOf({n}, perms) {
      assert n in {n} && q in perms(n);
    }
  }

  /** The bindings of a policy document applied in document order. */
  function ApplyBindings(s: Store, resName: string, bs: seq<BindingSpec>, perms: PermissionSource): (r: Result<Store>)
    ensures r.Ok? <==> PolicyWellFormed(bs) && (|bs| == 0 || resName in s.resources)
    ensures r.Err? ==> r.error.MalformedMember? || r.error == ResourceNotFound(resName)
    ensures r.Ok? ==> Grows(s, r.value) && r.value.resources == s.resources
    decreases |bs|
  {
    if bs == [] then Ok(s)
    else
      var s1 :- ApplyBinding(s, resName, bs[0], perms);
      assert PolicyWellFormed(bs) <==> MembersWellFormed(bs[0].members) && PolicyWellFormed(bs[1..]) by {
        assert forall j :: 0 < j < |bs| ==> bs[1..][j - 1] == bs[j];
      }
      var r := ApplyBindings(s1, resName, bs[1..], perms);
      assert r.Ok? ==> Grows(s, r.value) by {
        if r.Ok? { GrowsTransitive(s, s1, r.value); }
      }
      r
  }

  /** Which error a failing policy reports: the resource query fails only
      once a binding's members are all well formed, so a missing resource
      surfaces as `ResourceNotFound` exactly when the first binding is well
      formed, and a present resource can only fail on a malformed member. */
  lemma {:induction false} ApplyBindingsError(s: Store, resName: string, bs: seq<BindingSpec>, perms: PermissionSource)
    requires ApplyBindings(s, resName, bs, perms).Err?
    ensures var e := ApplyBindings(s, resName, bs, perms).error;
      && (PolicyWellFormed(bs) ==> e == ResourceNotFound(resName))
      && (resName in s.resources ==> e.MalformedMember?)
      && (MembersWellFormed(bs[0].members) && resName !in s.resources ==> e == ResourceNotFound(resName))
    decreases |bs|
  {
    var r0 := ApplyBinding(s, resName, bs[0], perms);
    if r0.Err? {
      if !MembersWellFormed(bs[0].members) {
        MergeMembersFirstError(s, bs[0].members);
      }
    } else {
      var s1 := r0.value;
      assert forall j :: 0 < j < |bs| ==> bs[1..][j - 1] == bs[j];
      ApplyBindingsError(s1, resName, bs[1..], perms);
    }
  }

  /** A successful policy document adds exactly its members' principal
      names and leaves every other principal alone. */
  lemma {:induction false} ApplyBindingsPrincipals(s: Store, resName: string, bs: seq<BindingSpec>,
                                                   perms: PermissionSource)
    requires ApplyBindings(s, resName, bs, perms).Ok?
    ensures PolicyWellFormed(bs)
    ensures ApplyBindings(s, resName, bs, perms).value.principals.Keys == s.principals.Keys + PolicyMemberNames(bs)
    ensures forall n :: n in s.principals && n !in PolicyMemberNames(bs) ==>
              ApplyBindings(s, resName, bs, perms).value.principals[n] == s.principals[n]
    decreases |bs|
  {
    if bs != [] {
      var s1 := ApplyBinding(s, resName, bs[0], perms).value;
      assert forall j :: 0 < j < |bs| ==> bs[1..][j - 1] == bs[j];
      assert ApplyBindings(s, resName, bs, perms) == ApplyBindings(s1, resName, bs[1..], perms);
      assert PolicyMemberNames(bs) == MemberNameSet(bs[0].members) + PolicyMemberNames(bs[1..]);
      ApplyBindingPrincipals(s, resName, bs[0], perms);
      ApplyBindingsPrincipals(s1, resName, bs[1..], perms);
    }
  }

  /** Every member principal of a successful policy document keeps the
      parents it had before the policy (none if it is new). */
  lemma {:induction false} ApplyBindingsKeepsParents(s: Store, resName: string, bs: seq<BindingSpec>,
                                                     perms: PermissionSource)
    requires ApplyBindings(s, resName, bs, perms).Ok?
    ensures PolicyWellFormed(bs)
    ensures forall n :: n in PolicyMemberNames(bs) ==>
              && n in ApplyBindings(s, resName, bs, perms).value.principals
              && ApplyBindings(s, resName, bs, perms).value.principals[n].parents == KeptParents(s, n)
    decreases |bs|
  {
    if bs != [] {
      var s1 := ApplyBinding(s, resName, bs[0], perms).value;
      assert forall j :: 0 < j < |bs| ==> bs[1..][j - 1] == bs[j];
      var t := ApplyBindings(s1, resName, bs[1..], perms).value;
      assert ApplyBindings(s, resName, bs, perms).value == t;
      var here, later := MemberNameSet(bs[0].members), PolicyMemberNames(bs[1..]);
      assert PolicyMemberNames(bs) == here + later;
      ApplyBindingPrincipals(s, resName, bs[0], perms);
      ApplyBindingsPrincipals(s1, resName, bs[1..], perms);
      ApplyBindingsKeepsParents(s1, resName, bs[1..], perms);
      forall n | n in here + later ensures n in t.principals && t.principals[n].parents == KeptParents(s, n) {
        if n in later {
          assert KeptParents(s1, n) == KeptParents(s, n);
        }
      }
    }
  }

  /** A successful policy document adds exactly the roles its entries name,
      and the permission table gains exactly the permissions of the roles
      that did not exist before. */
  lemma {:induction false} ApplyBindingsRoles(s: Store, resName: string, bs: seq<BindingSpec>,
                                              perms: PermissionSource)
    requires ApplyBindings(s, resName, bs, perms).Ok?
    ensures ApplyBindings(s, resName, bs, perms).value.roles.Keys == s.roles.Keys + PolicyRoles(bs)
    ensures ApplyBindings(s, resName, bs, perms).value.permissions
            == s.permissions + PermissionsOf(PolicyRoles(bs) - s.roles.Keys, perms)
    decreases |bs|
  {
    if bs != [] {
      var r0 := bs[0].role;
      var s1 := ApplyBinding(s, resName, bs[0], perms).value;
      assert ApplyBindings(s, resName, bs, perms) == ApplyBindings(s1, resName, bs[1..], perms);
      ApplyBindingsRoles(s1, resName, bs[1..], perms);
      var later := PolicyRoles(bs[1..]);
      assert PolicyRoles(bs) == {r0} + later;
      assert later - s1.roles.Keys == later - s.roles.Keys - {r0};
      PermissionsOfOne(r0, perms);
      if r0 in s.roles {
        assert PolicyRoles(bs) - s.roles.Keys == later - s.roles.Keys - {r0};
      } else {
        assert PolicyRoles(bs) - s.roles.Keys == {r0} + (later - s.roles.Keys - {r0});
        PermissionsOfUnion({r0}, later - s.roles.Keys - {r0}, perms);
      }
    }
  }

  /** A successful policy appends exactly one binding per document entry, in
      document order; every role it names exists afterwards, roles that
      existed keep their permissions, new roles get the permission source's
      permissions, and every member is a principal. */
  lemma {:induction false} ApplyBindingsContents(s: Store, resName: string, bs: seq<BindingSpec>, perms: PermissionSource)
    requires ApplyBindings(s, resName, bs, perms).Ok?
    ensures PolicyWellFormed(bs)
    ensures var t := ApplyBindings(s, resName, bs, perms).value;
      && t.bindings == s.bindings + PolicyBindings(resName, bs)
      && (forall j :: 0 <= j < |bs| ==> bs[j].role in t.roles)
      && (forall n :: n in t.roles && n !in s.roles ==> t.roles[n] == Role(n, perms(n)))
      && (forall j, k :: 0 <= j < |bs| && 0 <= k < |bs[j].members| ==> MemberNames(bs[j].members)[k] in t.principals)
    decreases |bs|
  {
    if bs != [] {
      var s1 := ApplyBinding(s, resName, bs[0], perms).value;
      var t := ApplyBindings(s, resName, bs, perms).value;
      assert forall j :: 0 < j < |bs| ==> bs[1..][j - 1] == bs[j];
      ApplyBindingAdds(s, resName, bs[0], perms);
      ApplyBindingsContents(s1, resName, bs[1..], perms);
      assert PolicyBindings(resName, bs) == [Binding(resName, bs[0].role, MemberNames(bs[0].members))]
                                            + PolicyBindings(resName, bs[1..]);
      forall j, k | 0 <= j < |bs| && 0 <= k < |bs[j].members|
        ensures MemberNames(bs[j].members)[k] in t.principals
      {
        if j == 0 {
          assert MemberNames(bs[0].members)[k] in s1.principals;
        } else {
          assert bs[j] == bs[1..][j - 1];
        }
      }
      forall j | 0 <= j < |bs| ensures bs[j].role in t.roles {
        if j > 0 { assert bs[j] == bs[1..][j - 1]; }
      }
    }
  }

  /** A policy on resource `(t, id)`: every binding of its document adds
      exactly one binding on `"t/id"`, in document order. */
  function ConvertPolicy(s: Store, p: PolicyRecord, perms: PermissionSource): (r: Result<Store>)
    ensures r.Ok? <==>
              PolicyWellFormed(p.doc.bindings) && (|p.doc.bindings| == 0 || PolicyResourceName(p) in s.resources)
    ensures r.Ok? ==> r.value.bindings == s.bindings + PolicyBindings(PolicyResourceName(p), p.doc.bindings)
    ensures r.Err? && PolicyWellFormed(p.doc.bindings) ==> r.error == ResourceNotFound(PolicyResourceName(p))
    ensures r.Err? ==> r.error.MalformedMember? || r.error == ResourceNotFound(PolicyResourceName(p))
    ensures r.Ok? ==> Grows(s, r.value) && r.value.resources == s.resources
    ensures r.Ok? ==> r.value.principals.Keys == s.principals.Keys + PolicyMemberNames(p.doc.bindings)
    ensures r.Ok? ==> forall n :: n in s.principals && n !in PolicyMemberNames(p.doc.bindings) ==>
                                   r.value.principals[n] == s.principals[n]
    ensures r.Ok? ==> forall n :: n in PolicyMemberNames(p.doc.bindings) ==>
                                   r.value.principals[n].parents == KeptParents(s, n)
    ensures r.Ok? ==> r.value.roles.Keys == s.roles.Keys + PolicyRoles(p.doc.bindings)
    ensures r.Ok? ==> forall n :: n in r.value.roles && n !in s.roles ==> r.value.roles[n] == Role(n, perms(n))
    ensures r.Ok? ==> r.value.permissions
                      == s.permissions + PermissionsOf(PolicyRoles(p.doc.bindings) - s.roles.Keys, perms)
  {
    var name := PolicyResourceName(p);
    var r := ApplyBindings(s, name, p.doc.bindings, perms);
    assert r.Ok? ==>
      && r.value.principals.Keys == s.principals.Keys + PolicyMemberNames(p.doc.bindings)
      && forall n :: n in s.principals && n !in PolicyMemberNames(p.doc.bindings) ==>
                       r.value.principals[n] == s.principals[n]
    by {
      if r.Ok? { ApplyBindingsPrincipals(s, name, p.doc.bindings, perms); }
    }
    assert r.Ok? ==> forall n :: n in PolicyMemberNames(p.doc.bindings) ==>
                                   r.value.principals[n].parents == KeptParents(s, n)
    by {
      if r.Ok? { ApplyBindingsKeepsParents(s, name, p.doc.bindings, perms); }
    }
    assert r.Ok? ==>
      && r.value.bindings == s.bindings + PolicyBindings(name, p.doc.bindings)
      && forall n :: n in r.value.roles && n !in s.roles ==> r.value.roles[n] == Role(n, perms(n))
    by {
      if r.Ok? { ApplyBindingsContents(s, name, p.doc.bindings, perms); }
    }
    assert r.Ok? ==>
      && r.value.roles.Keys == s.roles.Keys + PolicyRoles(p.doc.bindings)
      && r.value.permissions == s.permissions + PermissionsOf(PolicyRoles(p.doc.bindings) - s.roles.Keys, perms)
    by {
      if r.Ok? { ApplyBindingsRoles(s, name, p.doc.bindings, perms); }
    }
    assert r.Err? && PolicyWellFormed(p.doc.bindings) ==> r.error == ResourceNotFound(name) by {
      if r.Err? { ApplyBindingsError(s, name, p.doc.bindings, perms); }
    }
    r
  }
}

=== FILE: principals.dfy ===
/** The principal converters of the Forseti importer: group records and
    group memberships. */
module Principals {
  import opened Names
  import opened Store

  /** The member side of a membership record: its type as the inventory
      spells it (for example `USER`) and its email. */
  datatype GroupMember = GroupMember(memberType: string, email: string)

  function GroupName(email: string): string {
    LocalName(GroupType, email)
  }

  function GroupNames(groups: seq<string>): set<string> {
    set g | g in groups :: GroupName(g)
  }

  function GroupPrincipal(email: string): Principal {
    Principal(GroupName(email), email, GroupType, {})
  }

  lemma GroupNameInjective(g1: string, g2: string)
    requires GroupName(g1) == GroupName(g2)
    ensures g1 == g2
  {
    LocalNameInjective(GroupType, g1, GroupType, g2);
  }

  /** A group record becomes the principal `"group/<email>"` of type group;
      an existing principal of that name keeps its parents. */
  function ConvertGroup(s: Store, email: string): (t: Store)
    ensures GroupName(email) in t.principals
    ensures t.principals[GroupName(email)] == GroupPrincipal(email).(parents := KeptParents(s, GroupName(email)))
    ensures t.principals.Keys == s.principals.Keys + {GroupName(email)}
    ensures forall n :: n in s.principals && n != GroupName(email) ==> t.principals[n] == s.principals[n]
    ensures t.resources == s.resources && t.roles == s.roles
    ensures t.permissions == s.permissions && t.bindings == s.bindings
  {
    MergePrincipal(s, GroupPrincipal(email), false)
  }

  /** Upserts the groups of a membership in order; only their names are
      added and nothing but principals changes. */
  function MergeGroups(s: Store, groups: seq<string>): (t: Store)
    ensures t.principals.Keys == s.principals.Keys + GroupNames(groups)
    ensures t.resources == s.resources && t.roles == s.roles
    ensures t.permissions == s.permissions && t.bindings == s.bindings
    decreases |groups|
  {
    if groups == [] then s
    else
      assert GroupNames(groups) == {GroupName(groups[0])} + GroupNames(groups[1..]);
      MergeGroups(ConvertGroup(s, groups[0]), groups[1..])
  }

  /** After the groups of a membership are upserted, each is a principal of
      type group holding the parents it had before (none if it is new), and
      every other principal is untouched. */
  lemma {:induction false} MergeGroupsStores(s: Store, groups: seq<string>)
    ensures var t := MergeGroups(s, groups);
      forall g :: g in groups ==>
        t.principals[GroupName(g)] == GroupPrincipal(g).(parents := KeptParents(s, GroupName(g)))
    ensures var t := MergeGroups(s, groups);
      forall n :: n in s.principals && n !in GroupNames(groups) ==> t.principals[n] == s.principals[n]
    decreases |groups|
  {
    if groups != [] {
      var g0 := groups[0];
      var rest := groups[1..];
      var s1 := ConvertGroup(s, g0);
      var t := MergeGroups(s1, rest);
      MergeGroupsStores(s1, rest);
      assert GroupNames(groups) == {GroupName(g0)} + GroupNames(rest);
      forall g | g in groups
        ensures t.principals[GroupName(g)] == GroupPrincipal(g).(parents := KeptParents(s, GroupName(g)))
      {
        if g in rest {
          assert KeptParents(s1, GroupName(g)) == KeptParents(s, GroupName(g));
        } else if GroupName(g) in GroupNames(rest) {
          var g' :| g' in rest && GroupName(g') == GroupName(g);
          GroupNameInjective(g', g);
        }
      }
    }
  }

  /** The principal name of a membership's member: the lower-cased member
      type, `/`, and the email. */
  function MemberName(m: GroupMember): string {
    LocalName(ToLower(m.memberType), m.email)
  }

  /** When member types hold no `/`, a membership's principal name
      determines the member's lower-cased type and its email: two members
      share a principal row exactly when they agree on both. */
  lemma MemberNameInjective(m1: GroupMember, m2: GroupMember)
    requires '/' !in m1.memberType && '/' !in m2.memberType
    ensures MemberName(m1) == MemberName(m2) <==>
              ToLower(m1.memberType) == ToLower(m2.memberType) && m1.email == m2.email
  {
    ToLowerKeepsSlashFree(m1.memberType);
    ToLowerKeepsSlashFree(m2.memberType);
    if MemberName(m1) == MemberName(m2) {
      LocalNameInjective(ToLower(m1.memberType), m1.email, ToLower(m2.memberType), m2.email);
    }
  }

  /** A membership upserts each of its groups, then the member with its
      parents set to exactly those groups. */
  function ConvertMembership(s: Store, m: GroupMember, groups: seq<string>): (t: Store)
    ensures MemberName(m) in t.principals
    ensures t.principals[MemberName(m)] ==
              Principal(MemberName(m), m.email, ToLower(m.memberType), GroupNames(groups))
    ensures forall g :: g in groups ==> GroupName(g) in t.principals
    ensures forall g :: g in groups && GroupName(g) != MemberName(m) ==>
              t.principals[GroupName(g)] == GroupPrincipal(g).(parents := KeptParents(s, GroupName(g)))
    ensures t.principals.Keys == s.principals.Keys + GroupNames(groups) + {MemberName(m)}
    ensures forall n :: n in s.principals && n !in GroupNames(groups) && n != MemberName(m) ==>
              t.principals[n] == s.principals[n]
    ensures t.resources == s.resources && t.roles == s.roles
    ensures t.permissions == s.permissions && t.bindings == s.bindings
  {
    var s1 := MergeGroups(s, groups);
    MergeGroupsStores(s, groups);
    MergePrincipal(s1, Principal(MemberName(m), m.email, ToLower(m.memberType), GroupNames(groups)), true)
  }

  /** Replaying a membership changes nothing: re-resolving known groups does
      not duplicate them and the member keeps exactly the same parents. */
  lemma ConvertMembershipIdempotent(s: Store, m: GroupMember, groups: seq<string>)
    ensures ConvertMembership(ConvertMembership(s, m, groups), m, groups) == ConvertMembership(s, m, groups)
  {
    var t := ConvertMembership(s, m, groups);
    var u := ConvertMembership(t, m, groups);
    MergeGroupsStores(t, groups);
    forall n | n in u.principals
      ensures n in t.principals && u.principals[n] == t.principals[n]
    {
      if n == MemberName(m) {
      } else if g :| g in groups && n == GroupName(g) {
        assert KeptParents(t, n) == KeptParents(s, n);
      }
    }
    assert u.principals == t.principals;
  }

  /** Replaying a group record changes nothing. */
  lemma ConvertGroupIdempotent(s: Store, email: string)
    ensures ConvertGroup(ConvertGroup(s, email), email) == ConvertGroup(s, email)
  {
    MergePrincipalIdempotent(s, GroupPrincipal(email), false);
  }
}

=== FILE: resources.dfy ===
/** The resource converters of the Forseti importer and its in-run resource
    cache, which maps `"type/id"` keys to the resolved node and its full
    name. */
module Resources {
  import opened Errors
  import opened Names
  import opened Store

  datatype CacheEntry = CacheEntry(node: Resource, fullName: string)

  type Cache = map<string, CacheEntry>

  /** The well-known key the organization root is also cached under. */
  const OrganizationKey: string := "organization"

  datatype Organization = Organization(orgId: string)
  datatype Folder = Folder(folderId: string, parentType: string, parentId: string, displayName: Option<string>)
  datatype Project = Project(projectNumber: string, parentType: string, parentId: string, projectName: Option<string>)
  datatype Bucket = Bucket(bucketId: string, projectNumber: string)
  datatype SqlInstance = SqlInstance(instanceName: string, projectNumber: string)

  /** What the converters read and write: the run's cache and the store. */
  datatype Env = Env(cache: Cache, store: Store)

  function OrganizationName(o: Organization): string {
    LocalName(OrganizationType, o.orgId)
  }

  /** The root of the hierarchy: its full name is its local name, it has no
      parent, and it is cached under its own name and the well-known key. */
  function ConvertOrganization(env: Env, o: Organization): (r: Env)
    ensures var name := OrganizationName(o);
      && r.cache.Keys == env.cache.Keys + {OrganizationKey, name}
      && r.cache[OrganizationKey] == r.cache[name]
      && r.cache[name].fullName == name
      && r.cache[name].node == Resource(name, name, OrganizationType, None, None)
      && name in r.store.resources
      && r.store.resources[name].fullName == name
      && r.store.resources[name].parent.None?
      && r.store.resources[name].rtype == OrganizationType
    ensures forall k :: k in env.cache && k != OrganizationKey && k != OrganizationName(o) ==>
              r.cache[k] == env.cache[k]
    ensures var name := OrganizationName(o);
      && r.store.resources[name].name == name
      && r.store.resources[name].displayName
         == (if name in env.store.resources then env.store.resources[name].displayName else None)
      && r.store.resources.Keys == env.store.resources.Keys + {name}
      && (forall n :: n in env.store.resources && n != name ==> r.store.resources[n] == env.store.resources[n])
    ensures r.store.principals == env.store.principals && r.store.roles == env.store.roles
    ensures r.store.permissions == env.store.permissions && r.store.bindings == env.store.bindings
  {
    var name := OrganizationName(o);
    var org := Resource(name, name, OrganizationType, None, None);
    var entry := CacheEntry(org, name);
    MergeResourceStores(env.store, org);
    Env(env.cache[OrganizationKey := entry][name := entry], MergeResource(env.store, org))
  }

  /** The shared step of every non-root converter: find the parent under
      `parentKey`, compose the full name below it, upsert the node, and
      cache it under its local name when `cacheIt` holds. */
  function ResolveChild(env: Env, parentKey: string, rtype: string, id: string,
                        display: Option<string>, cacheIt: bool): (r: Result<Env>)
    ensures r.Ok? <==> parentKey in env.cache
    ensures r.Err? ==> r.error == ParentNotCached(parentKey)
    ensures r.Ok? ==>
      var name := LocalName(rtype, id);
      var parent := env.cache[parentKey];
      && name in r.value.store.resources
      && r.value.store.resources[name].name == name
      && r.value.store.resources[name].fullName == parent.fullName + "/" + rtype + "/" + id
      && r.value.store.resources[name].parent == Some(parent.node.name)
      && r.value.store.resources[name].rtype == rtype
      && (display.Some? ==> r.value.store.resources[name].displayName == display)
      && (display.None? ==> r.value.store.resources[name].displayName
                            == (if name in env.store.resources then env.store.resources[name].displayName else None))
    ensures r.Ok? ==>
      var name := LocalName(rtype, id);
      && r.value.store.resources.Keys == env.store.resources.Keys + {name}
      && (forall n :: n in env.store.resources && n != name ==> r.value.store.resources[n] == env.store.resources[n])
      && r.value.store.principals == env.store.principals && r.value.store.roles == env.store.roles
      && r.value.store.permissions == env.store.permissions && r.value.store.bindings == env.store.bindings
    ensures r.Ok? ==>
      var name := LocalName(rtype, id);
      && r.value.cache.Keys == env.cache.Keys + (if cacheIt then {name} else {})
      && (forall k :: k in env.cache && k != name ==> r.value.cache[k] == env.cache[k])
      && (!cacheIt ==> r.value.cache == env.cache)
      && (cacheIt ==>
            && r.value.cache[name].fullName == r.value.store.resources[name].fullName
            && r.value.cache[name].node == r.value.store.resources[name].(displayName := display))
  {
    if parentKey !in env.cache then Err(ParentNotCached(parentKey))
    else
      var name := LocalName(rtype, id);
      var parent := env.cache[parentKey];
      var full := ChildFullName(parent.fullName, name);
      var node := Resource(name, full, rtype, Some(parent.node.name), display);
      var cache := if cacheIt then env.cache[name := CacheEntry(node, full)] else env.cache;
      MergeResourceStores(env.store, node);
      Ok(Env(cache, MergeResource(env.store, node)))
  }

  function FolderParentKey(f: Folder): string {
    LocalName(f.parentType, f.parentId)
  }

  function ProjectParentKey(p: Project): string {
    LocalName(p.parentType, p.parentId)
  }

  /** Buckets and SQL instances hang below the project with their number. */
  function ProjectKey(projectNumber: string): string {
    LocalName(ProjectType, projectNumber)
  }

  /** A folder's full name is its parent's cached full name, `/`, and
      `"folder/<id>"`; the folder is cached under `"folder/<id>"`. A missing
      parent key fails the conversion. */
  function ConvertFolder(env: Env, f: Folder): (r: Result<Env>)
    ensures r.Ok? <==> FolderParentKey(f) in env.cache
    ensures r.Err? ==> r.error == ParentNotCached(FolderParentKey(f))
    ensures r.Ok? ==>
      var name := LocalName(FolderType, f.folderId);
      var parent := env.cache[FolderParentKey(f)];
      && name in r.value.cache
      && r.value.cache[name].fullName == parent.fullName + "/folder/" + f.folderId
      && r.value.cache[name].node.parent == Some(parent.node.name)
      && name in r.value.store.resources
      && r.value.store.resources[name].(displayName := f.displayName) == r.value.cache[name].node
      && (f.displayName.Some? ==> r.value.store.resources[name] == r.value.cache[name].node)
      && (f.displayName.None? ==> r.value.store.resources[name].displayName
                                  == (if name in env.store.resources then env.store.resources[name].displayName else None))
      && r.value.cache.Keys == env.cache.Keys + {name}
  {
    ResolveChild(env, FolderParentKey(f), FolderType, f.folderId, f.displayName, true)
  }

  /** A project's full name is its parent's cached full name, `/`, and
      `"project/<number>"`; the project is cached under `"project/<number>"`. */
  function ConvertProject(env: Env, p: Project): (r: Result<Env>)
    ensures r.Ok? <==> ProjectParentKey(p) in env.cache
    ensures r.Err? ==> r.error == ParentNotCached(ProjectParentKey(p))
    ensures r.Ok? ==>
      var name := ProjectKey(p.projectNumber);
      var parent := env.cache[ProjectParentKey(p)];
      && name in r.value.cache
      && r.value.cache[name].fullName == parent.fullName + "/project/" + p.projectNumber
      && r.value.cache[name].node.parent == Some(parent.node.name)
      && name in r.value.store.resources
      && r.value.store.resources[name].(displayName := p.projectName) == r.value.cache[name].node
      && (p.projectName.Some? ==> r.value.store.resources[name] == r.value.cache[name].node)
      && (p.projectName.None? ==> r.value.store.resources[name].displayName
                                  == (if name in env.store.resources then env.store.resources[name].displayName else None))
      && r.value.cache.Keys == env.cache.Keys + {name}
  {
    ResolveChild(env, ProjectParentKey(p), ProjectType, p.projectNumber, p.projectName, true)
  }

  /** A bucket's full name is its project's cached full name, `/`, and
      `"bucket/<id>"`. Buckets are never cached. */
  function ConvertBucket(env: Env, b: Bucket): (r: Result<Env>)
    ensures r.Ok? <==> ProjectKey(b.projectNumber) in env.cache
    ensures r.Err? ==> r.error == ParentNotCached(ProjectKey(b.projectNumber))
    ensures r.Ok? ==>
      var name := LocalName(BucketType, b.bucketId);
      var parent := env.cache[ProjectKey(b.projectNumber)];
      && r.value.cache == env.cache
      && name in r.value.store.resources
      && r.value.store.resources[name].fullName == parent.fullName + "/bucket/" + b.bucketId
      && r.value.store.resources[name].parent == Some(parent.node.name)
      && r.value.store.resources[name].rtype == BucketType
  {
    ResolveChild(env, ProjectKey(b.projectNumber), BucketType, b.bucketId, None, false)
  }

  /** A SQL instance's full name is its project's cached full name, `/`, and
      `"cloudsqlinstance/<name>"`. SQL instances are never cached. */
  function ConvertSqlInstance(env: Env, i: SqlInstance): (r: Result<Env>)
    ensures r.Ok? <==> ProjectKey(i.projectNumber) in env.cache
    ensures r.Err? ==> r.error == ParentNotCached(ProjectKey(i.projectNumber))
    ensures r.Ok? ==>
      var name := LocalName(SqlInstanceType, i.instanceName);
      var parent := env.cache[ProjectKey(i.projectNumber)];
      && r.value.cache == env.cache
      && name in r.value.store.resources
      && r.value.store.resources[name].fullName == parent.fullName + "/cloudsqlinstance/" + i.instanceName
      && r.value.store.resources[name].parent == Some(parent.node.name)
      && r.value.store.resources[name].rtype == SqlInstanceType
  {
    ResolveChild(env, ProjectKey(i.projectNumber), SqlInstanceType, i.instanceName, None, false)
  }

  /** The cache invariant: each entry's full name is the one recorded on its
      node and is a well-formed path ending in the node's local name; the
      node is a container (only organizations, folders and projects are
      cached) and is filed under its own local name, or is the organization
      root filed under the well-known key. */
  ghost predicate EntryWellFormed(key: string, e: CacheEntry) {
    && e.fullName == e.node.fullName
    && IsTyped(e.node.name, e.node.rtype)
    && IsContainerName(e.node.name)
    && IsPath(e.fullName, e.node.name)
    && (key == e.node.name || (key == OrganizationKey && e.node.rtype == OrganizationType))
  }

  ghost predicate CacheWellFormed(c: Cache) {
    forall k :: k in c ==> EntryWellFormed(k, c[k])
  }

  /** What the importer relies on between two records. */
  ghost predicate EnvWellFormed(env: Env) {
    CacheWellFormed(env.cache) && StoreWellFormed(env.store)
  }

  lemma OrganizationKeepsWellFormed(env: Env, o: Organization)
    requires EnvWellFormed(env)
    ensures EnvWellFormed(ConvertOrganization(env, o))
  {
    var name := OrganizationName(o);
    LocalNameIsTyped(OrganizationType, o.orgId);
    RootIsPath(name);
  }

  /** A child resolved below a well-formed cache entry keeps the cache and
      the store well formed, whatever the type of the child. */
  lemma ResolveChildKeepsWellFormed(env: Env, parentKey: string, rtype: string, id: string,
                                    display: Option<string>, cacheIt: bool)
    requires EnvWellFormed(env)
    requires cacheIt ==> rtype == FolderType || rtype == ProjectType
    requires ResolveChild(env, parentKey, rtype, id, display, cacheIt).Ok?
    ensures EnvWellFormed(ResolveChild(env, parentKey, rtype, id, display, cacheIt).value)
  {
    var name := LocalName(rtype, id);
    var parent := env.cache[parentKey];
    assert EntryWellFormed(parentKey, parent);
    ChildIsPath(parent.fullName, parent.node.name, name);
    LocalNameIsTyped(rtype, id);
  }

  /** A folder keeps the cache invariant and the store invariant. */
  lemma FolderKeepsWellFormed(env: Env, f: Folder)
    requires EnvWellFormed(env)
    ensures ConvertFolder(env, f).Ok? ==> EnvWellFormed(ConvertFolder(env, f).value)
  {
    if ConvertFolder(env, f).Ok? {
      ResolveChildKeepsWellFormed(env, FolderParentKey(f), FolderType, f.folderId, f.displayName, true);
    }
  }

  /** A project keeps the cache invariant and the store invariant. */
  lemma ProjectKeepsWellFormed(env: Env, p: Project)
    requires EnvWellFormed(env)
    ensures ConvertProject(env, p).Ok? ==> EnvWellFormed(ConvertProject(env, p).value)
  {
    if ConvertProject(env, p).Ok? {
      ResolveChildKeepsWellFormed(env, ProjectParentKey(p), ProjectType, p.projectNumber, p.projectName, true);
    }
  }

  /** A bucket keeps the cache invariant and the store invariant. */
  lemma BucketKeepsWellFormed(env: Env, b: Bucket)
    requires EnvWellFormed(env)
    ensures ConvertBucket(env, b).Ok? ==> EnvWellFormed(ConvertBucket(env, b).value)
  {
    if ConvertBucket(env, b).Ok? {
      ResolveChildKeepsWellFormed(env, ProjectKey(b.projectNumber), BucketType, b.bucketId, None, false);
    }
  }

  /** A SQL instance keeps the cache invariant and the store invariant. */
  lemma SqlInstanceKeepsWellFormed(env: Env, i: SqlInstance)
    requires EnvWellFormed(env)
    ensures ConvertSqlInstance(env, i).Ok? ==> EnvWellFormed(ConvertSqlInstance(env, i).value)
  {
    if ConvertSqlInstance(env, i).Ok? {
      ResolveChildKeepsWellFormed(env, ProjectKey(i.projectNumber), SqlInstanceType, i.instanceName, None, false);
    }
  }

  /** Every cached full name starts at an organization and ends with the
      cached node's local name. */
  lemma CachedFullNameShape(c: Cache, k: string)
    requires CacheWellFormed(c) && k in c
    ensures OrganizationType + "/" <= c[k].fullName
    ensures var n := c[k].node.name; |n| <= |c[k].fullName| && c[k].fullName[|c[k].fullName| - |n|..] == n
  {
    assert EntryWellFormed(k, c[k]);
    PathShape(c[k].fullName, c[k].node.name);
  }
}

=== FILE: run_properties.dfy ===
/** Properties of whole import runs: parents before children, the cache
    invariant, what a finished or failed run means, and the watchdog
    schedule. */
module RunProperties {
  import opened Errors
  import opened Names
  import opened Store
  import opened Resources
  import opened Principals
  import opened Policies
  import opened Importer

  // ---------------------------------------------------------------------
  // Stopping and finishing

  /** A stopped loop stopped at the record whose dispatch failed, with the
      state the records before it had produced. */
  lemma {:induction false} ProcessStoppedExplained(st0: RunState, evs: seq<Event>, perms: PermissionSource)
    requires Process(st0, evs, perms).Stopped?
    ensures var p := Process(st0, evs, perms);
      && Process(st0, evs[..p.at], perms) == Running(p.state)
      && Dispatch(p.state.env, evs[p.at].record, perms) == Err(p.error)
    decreases |evs|
  {
    var init := evs[..|evs| - 1];
    var p := Process(st0, evs, perms);
    if Process(st0, init, perms).Stopped? {
      ProcessStoppedExplained(st0, init, perms);
      assert init[..p.at] == evs[..p.at];
    } else {
      assert p.at == |evs| - 1;
    }
  }

  /** A loop that ran through the whole stream ran through every prefix. */
  lemma ProcessRunningPrefixes(st0: RunState, evs: seq<Event>, perms: PermissionSource)
    requires Process(st0, evs, perms).Running?
    ensures forall i :: 0 <= i <= |evs| ==> Process(st0, evs[..i], perms).Running?
  {
    forall i | 0 <= i <= |evs|
      ensures Process(st0, evs[..i], perms).Running?
    {
      if Process(st0, evs[..i], perms).Stopped? {
        ProcessStoppedExtends(st0, evs, i, perms);
      }
    }
  }

  /** The record at index `i` is handled without error, after all records
      before it were. */
  ghost predicate HandledAt(st0: RunState, evs: seq<Event>, perms: PermissionSource, i: nat)
    requires i < |evs|
  {
    && Process(st0, evs[..i], perms).Running?
    && Dispatch(Process(st0, evs[..i], perms).state.env, evs[i].record, perms).Ok?
  }

  /** A run ends with the model done exactly when every record was handled
      without error; a run that fails ends in progress, at the first record
      that failed, with that record's error and the state the records before
      it had produced. */
  lemma RunOutcome(model: ModelRecord, store: Store, start: real, evs: seq<Event>, perms: PermissionSource)
    ensures var o := Run(model, store, start, evs, perms);
      o.state.model.status == Done <==> forall i :: 0 <= i < |evs| ==> HandledAt(StartRun(model, store, start), evs, perms, i)
    ensures var o := Run(model, store, start, evs, perms);
      o.Aborted? ==>
        && o.state.model.status == InProgress
        && (forall i :: 0 <= i < o.at ==> HandledAt(StartRun(model, store, start), evs, perms, i))
        && Process(StartRun(model, store, start), evs[..o.at], perms) == Running(o.state)
        && Dispatch(o.state.env, evs[o.at].record, perms) == Err(o.error)
  {
    var st0 := StartRun(model, store, start);
    var p := Process(st0, evs, perms);
    if p.Running? {
      ProcessRunningPrefixes(st0, evs, perms);
      forall i | 0 <= i < |evs| ensures HandledAt(st0, evs, perms, i) {
        assert evs[..i + 1][..i] == evs[..i];
        assert Process(st0, evs[..i + 1], perms).Running?;
      }
    } else {
      ProcessStoppedExplained(st0, evs, perms);
      var pre := evs[..p.at];
      ProcessRunningPrefixes(st0, pre, perms);
      forall i | 0 <= i < p.at ensures HandledAt(st0, evs, perms, i) {
        assert pre[..i] == evs[..i];
        assert pre[..i + 1] == evs[..i + 1];
        assert evs[..i + 1][..i] == evs[..i];
        assert Process(st0, evs[..i + 1], perms).Running?;
      }
      assert !HandledAt(st0, evs, perms, p.at);
    }
  }

  // ---------------------------------------------------------------------
  // Dispatch by kind

  /** A record fails as unsupported exactly when its kind is neither handled
      nor the ignored kind; the ignored kind changes nothing. */
  lemma DispatchKinds(env: Env, rec: Record, perms: PermissionSource)
    ensures (Dispatch(env, rec, perms).Err? && Dispatch(env, rec, perms).error.UnsupportedKind?)
            <==> rec.kind !in HandledKinds && rec.kind != IgnoredKind
    ensures rec.kind == IgnoredKind ==> Dispatch(env, rec, perms) == Ok(env)
  {
  }

  // ---------------------------------------------------------------------
  // Parents before children

  /** The cache keys a record adds when it is handled. */
  function RecordKeys(rec: Record): set<string> {
    if rec.kind == OrganizationsKind && rec.payload.OrganizationPayload? then
      {OrganizationKey, OrganizationName(rec.payload.org)}
    else if rec.kind == FoldersKind && rec.payload.FolderPayload? then
      {LocalName(FolderType, rec.payload.folder.folderId)}
    else if rec.kind == ProjectsKind && rec.payload.ProjectPayload? then
      {ProjectKey(rec.payload.project.projectNumber)}
    else {}
  }

  /** The cache keys a stream of handled records adds. */
  function IntroducedKeys(evs: seq<Event>): set<string>
    decreases |evs|
  {
    if |evs| == 0 then {}
    else IntroducedKeys(evs[..|evs| - 1]) + RecordKeys(evs[|evs| - 1].record)
  }

  /** The cache key a record's parent must be found under, for the record
      kinds that have a parent. */
  function ParentKeyOf(rec: Record): Option<string> {
    if rec.kind == FoldersKind && rec.payload.FolderPayload? then Some(FolderParentKey(rec.payload.folder))
    else if rec.kind == ProjectsKind && rec.payload.ProjectPayload? then Some(ProjectParentKey(rec.payload.project))
    else if rec.kind == BucketsKind && rec.payload.BucketPayload? then Some(ProjectKey(rec.payload.bucket.projectNumber))
    else if rec.kind == SqlInstancesKind && rec.payload.SqlInstancePayload? then
      Some(ProjectKey(rec.payload.instance.projectNumber))
    else None
  }

  /** A handled record adds exactly its own keys to the cache, and a record
      with a parent is handled exactly when the parent key is cached. */
  lemma DispatchCache(env: Env, rec: Record, perms: PermissionSource)
    ensures Dispatch(env, rec, perms).Ok? ==>
              Dispatch(env, rec, perms).value.cache.Keys == env.cache.Keys + RecordKeys(rec)
    ensures ParentKeyOf(rec).Some? ==>
              (Dispatch(env, rec, perms).Ok? <==> ParentKeyOf(rec).value in env.cache)
    ensures ParentKeyOf(rec).Some? && Dispatch(env, rec, perms).Err? ==>
              Dispatch(env, rec, perms).error == ParentNotCached(ParentKeyOf(rec).value)
  {
  }

  /** After a stream of handled records the cache holds exactly the keys
      those records introduced. */
  lemma {:induction false} ProcessCacheKeys(st0: RunState, evs: seq<Event>, perms: PermissionSource)
    requires Process(st0, evs, perms).Running?
    ensures Process(st0, evs, perms).state.env.cache.Keys == st0.env.cache.Keys + IntroducedKeys(evs)
    decreases |evs|
  {
    if |evs| > 0 {
      var init := evs[..|evs| - 1];
      ProcessCacheKeys(st0, init, perms);
      DispatchCache(Process(st0, init, perms).state.env, evs[|evs| - 1].record, perms);
    }
  }

  /** Parent-before-child: a folder, project, bucket or SQL instance whose
      parent key no earlier record introduced makes the run fail, at that
      record or before it, and the model is never marked done. */
  lemma MissingParentAborts(model: ModelRecord, store: Store, start: real, evs: seq<Event>,
                            perms: PermissionSource, i: nat)
    requires i < |evs|
    requires ParentKeyOf(evs[i].record).Some?
    requires ParentKeyOf(evs[i].record).value !in IntroducedKeys(evs[..i])
    ensures Run(model, store, start, evs, perms).Aborted?
    ensures Run(model, store, start, evs, perms).at <= i
    ensures Run(model, store, start, evs, perms).state.model.status != Done
  {
    var st0 := StartRun(model, store, start);
    var pre := Process(st0, evs[..i], perms);
    if pre.Stopped? {
      ProcessStoppedExtends(st0, evs, i, perms);
    } else {
      ProcessCacheKeys(st0, evs[..i], perms);
      DispatchCache(pre.state.env, evs[i].record, perms);
      assert evs[..i + 1][..i] == evs[..i];
      assert Process(st0, evs[..i + 1], perms).Stopped?;
      ProcessStoppedExtends(st0, evs, i + 1, perms);
    }
  }

  // ---------------------------------------------------------------------
  // The cache and store invariants

  lemma DispatchKeepsWellFormed(env: Env, rec: Record, perms: PermissionSource)
    requires EnvWellFormed(env)
    ensures Dispatch(env, rec, perms).Ok? ==> EnvWellFormed(Dispatch(env, rec, perms).value)
  {
    var p := rec.payload;
    if Dispatch(env, rec, perms).Ok? {
      if rec.kind == OrganizationsKind {
        OrganizationKeepsWellFormed(env, p.org);
      } else if rec.kind == FoldersKind {
        FolderKeepsWellFormed(env, p.folder);
      } else if rec.kind == ProjectsKind {
        ProjectKeepsWellFormed(env, p.project);
      } else if rec.kind == BucketsKind {
        BucketKeepsWellFormed(env, p.bucket);
      } else if rec.kind == SqlInstancesKind {
        SqlInstanceKeepsWellFormed(env, p.instance);
      }
    }
  }

  /** Whatever the stream, every state the loop reaches keeps the cache
      invariant (every cached full name is well formed) and the store
      invariant. */
  lemma {:induction false} ProcessKeepsWellFormed(st0: RunState, evs: seq<Event>, perms: PermissionSource)
    requires EnvWellFormed(st0.env)
    ensures EnvWellFormed(Process(st0, evs, perms).state.env)
    decreases |evs|
  {
    if |evs| > 0 {
      var init := evs[..|evs| - 1];
      ProcessKeepsWellFormed(st0, init, perms);
      DispatchKeepsWellFormed(Process(st0, init, perms).state.env, evs[|evs| - 1].record, perms);
    }
  }

  /** A run that starts from a well-formed store ends, done or failed, with
      a well-formed cache and store. */
  lemma RunKeepsWellFormed(model: ModelRecord, store: Store, start: real, evs: seq<Event>, perms: PermissionSource)
    requires StoreWellFormed(store)
    ensures EnvWellFormed(Run(model, store, start, evs, perms).state.env)
  {
    ProcessKeepsWellFormed(StartRun(model, store, start), evs, perms);
  }

  // ---------------------------------------------------------------------
  // What a finished run leaves in the store

  /** What a record leaves in the store once it is handled. */
  ghost predicate LeftIn(rec: Record, s: Store) {
    var p := rec.payload;
    if rec.kind == OrganizationsKind && p.OrganizationPayload? then OrganizationName(p.org) in s.resources
    else if rec.kind == FoldersKind && p.FolderPayload? then LocalName(FolderType, p.folder.folderId) in s.resources
    else if rec.kind == ProjectsKind && p.ProjectPayload? then ProjectKey(p.project.projectNumber) in s.resources
    else if rec.kind == BucketsKind && p.BucketPayload? then LocalName(BucketType, p.bucket.bucketId) in s.resources
    else if rec.kind == SqlInstancesKind && p.SqlInstancePayload? then
      LocalName(SqlInstanceType, p.instance.instanceName) in s.resources
    else if rec.kind == PolicyKind && p.PolicyPayload? then
      forall j :: 0 <= j < |p.policy.doc.bindings| ==> p.policy.doc.bindings[j].role in s.roles
    else if rec.kind == GroupKind && p.GroupPayload? then GroupName(p.email) in s.principals
    else if rec.kind == MembershipKind && p.MembershipPayload? then
      && MemberName(p.member) in s.principals
      && forall g :: g in p.groups ==> GroupName(g) in s.principals
    else true
  }

  /** The bindings a handled record appends. */
  function RecordBindings(rec: Record): seq<Binding> {
    if rec.kind == PolicyKind && rec.payload.PolicyPayload? && PolicyWellFormed(rec.payload.policy.doc.bindings) then
      PolicyBindings(PolicyResourceName(rec.payload.policy), rec.payload.policy.doc.bindings)
    else []
  }

  /** The bindings a stream of handled records appends, in stream order. */
  function AddedBindings(evs: seq<Event>): seq<Binding>
    decreases |evs|
  {
    if |evs| == 0 then [] else AddedBindings(evs[..|evs| - 1]) + RecordBindings(evs[|evs| - 1].record)
  }

  lemma LeftInGrows(rec: Record, s: Store, t: Store)
    requires LeftIn(rec, s) && Grows(s, t)
    ensures LeftIn(rec, t)
  {
  }

  /** A handled record leaves its trace in the store and appends exactly its
      own bindings. */
  lemma DispatchLeaves(env: Env, rec: Record, perms: PermissionSource)
    requires Dispatch(env, rec, perms).Ok?
    ensures LeftIn(rec, Dispatch(env, rec, perms).value.store)
    ensures Dispatch(env, rec, perms).value.store.bindings == env.store.bindings + RecordBindings(rec)
  {
    if rec.kind == PolicyKind {
      ApplyBindingsContents(env.store, PolicyResourceName(rec.payload.policy), rec.payload.policy.doc.bindings, perms);
    }
  }

  lemma {:induction false} ProcessGrows(st0: RunState, evs: seq<Event>, perms: PermissionSource)
    ensures Grows(st0.env.store, Process(st0, evs, perms).state.env.store)
    decreases |evs|
  {
    if |evs| > 0 {
      var init := evs[..|evs| - 1];
      ProcessGrows(st0, init, perms);
      var mid := Process(st0, init, perms).state.env.store;
      if Process(st0, init, perms).Running? {
        var d := Dispatch(Process(st0, init, perms).state.env, evs[|evs| - 1].record, perms);
        if d.Ok? {
          GrowsTransitive(st0.env.store, mid, d.value.store);
        }
      }
    }
  }

  /** One handled record past a running prefix: the loop's next state holds
      the dispatched store. */
  lemma ProcessStep(st0: RunState, evs: seq<Event>, perms: PermissionSource)
    requires |evs| > 0 && Process(st0, evs, perms).Running?
    ensures Process(st0, evs[..|evs| - 1], perms).Running?
    ensures var mid := Process(st0, evs[..|evs| - 1], perms).state;
      && Dispatch(mid.env, evs[|evs| - 1].record, perms).Ok?
      && Process(st0, evs, perms).state.env == Dispatch(mid.env, evs[|evs| - 1].record, perms).value
  {
  }

  /** One handled record past a running prefix appends exactly that
      record's bindings. */
  lemma BindingsStep(st0: RunState, evs: seq<Event>, perms: PermissionSource)
    requires |evs| > 0 && Process(st0, evs, perms).Running?
    ensures Process(st0, evs[..|evs| - 1], perms).Running?
    ensures Process(st0, evs, perms).state.env.store.bindings
            == Process(st0, evs[..|evs| - 1], perms).state.env.store.bindings + RecordBindings(evs[|evs| - 1].record)
  {
    ProcessStep(st0, evs, perms);
    DispatchLeaves(Process(st0, evs[..|evs| - 1], perms).state.env, evs[|evs| - 1].record, perms);
  }

  /** After a stream of handled records the store's bindings are the old
      ones followed by the bindings of every policy, in stream order. */
  lemma {:induction false} ProcessBindings(st0: RunState, evs: seq<Event>, perms: PermissionSource)
    requires Process(st0, evs, perms).Running?
    ensures Process(st0, evs, perms).state.env.store.bindings == st0.env.store.bindings + AddedBindings(evs)
    decreases |evs|
  {
    if |evs| > 0 {
      var init := evs[..|evs| - 1];
      var last := evs[|evs| - 1].record;
      BindingsStep(st0, evs, perms);
      ProcessBindings(st0, init, perms);
      var b0 := st0.env.store.bindings;
      var added := AddedBindings(init);
      assert AddedBindings(evs) == added + RecordBindings(last);
      assert b0 + added + RecordBindings(last) == b0 + (added + RecordBindings(last));
    }
  }

  /** After a stream of handled records each of them has left its trace in
      the store. */
  lemma {:induction false} ProcessLeaves(st0: RunState, evs: seq<Event>, perms: PermissionSource)
    requires Process(st0, evs, perms).Running?
    ensures forall i :: 0 <= i < |evs| ==> LeftIn(evs[i].record, Process(st0, evs, perms).state.env.store)
    decreases |evs|
  {
    if |evs| > 0 {
      var init := evs[..|evs| - 1];
      ProcessStep(st0, evs, perms);
      ProcessLeaves(st0, init, perms);
      var mid := Process(st0, init, perms).state.env;
      var fin := Process(st0, evs, perms).state.env;
      DispatchLeaves(mid, evs[|evs| - 1].record, perms);
      forall i | 0 <= i < |evs| ensures LeftIn(evs[i].record, fin.store) {
        if i < |evs| - 1 {
          assert evs[i] == init[i];
          LeftInGrows(evs[i].record, mid.store, fin.store);
        }
      }
    }
  }

  /** DONE means every record was processed: in a completed run every
      resource, group, membership and policy record has left its trace in
      the store, and the bindings are exactly the old ones followed by one
      per policy binding, in stream order. */
  lemma RunCompletedContents(model: ModelRecord, store: Store, start: real, evs: seq<Event>, perms: PermissionSource)
    requires Run(model, store, start, evs, perms).Completed?
    ensures var s := Run(model, store, start, evs, perms).state.env.store;
      && (forall i :: 0 <= i < |evs| ==> LeftIn(evs[i].record, s))
      && s.bindings == store.bindings + AddedBindings(evs)
  {
    ProcessLeaves(StartRun(model, store, start), evs, perms);
    ProcessBindings(StartRun(model, store, start), evs, perms);
  }

  // ---------------------------------------------------------------------
  // The watchdog

  /** The kick log: the last kick is the model's watchdog time, and any two
      consecutive kicks are more than the interval apart. */
  ghost predicate KicksSpaced(st: RunState) {
    && |st.kicks| > 0
    && st.lastKick == st.kicks[|st.kicks| - 1]
    && st.model.watchdog == st.lastKick
    && forall j :: 0 < j < |st.kicks| ==> st.kicks[j] - st.kicks[j - 1] > KickInterval
  }

  /** A watchdog check keeps the kick log spaced and only ever appends. */
  lemma HeartbeatKeepsKicksSpaced(st: RunState, now: real)
    requires KicksSpaced(st)
    ensures KicksSpaced(Heartbeat(st, now))
    ensures st.kicks <= Heartbeat(st, now).kicks
  {
  }

  lemma {:induction false} ProcessKeepsKicksSpaced(st0: RunState, evs: seq<Event>, perms: PermissionSource)
    requires KicksSpaced(st0)
    ensures KicksSpaced(Process(st0, evs, perms).state)
    ensures st0.kicks <= Process(st0, evs, perms).state.kicks
    decreases |evs|
  {
    if |evs| > 0 {
      var init := evs[..|evs| - 1];
      ProcessKeepsKicksSpaced(st0, init, perms);
      var p := Process(st0, init, perms);
      if p.Running? {
        var ev := evs[|evs| - 1];
        var d := Dispatch(p.state.env, ev.record, perms);
        if d.Ok? {
          HeartbeatKeepsKicksSpaced(p.state.(env := d.value), ev.clock);
        }
      }
    }
  }

  /** Liveness: right after each handled record, no more than the interval
      has passed since the last kick. */
  lemma HeartbeatLiveness(st0: RunState, evs: seq<Event>, perms: PermissionSource, i: nat)
    requires i < |evs| && Process(st0, evs[..i + 1], perms).Running?
    ensures evs[i].clock - Process(st0, evs[..i + 1], perms).state.lastKick <= KickInterval
  {
    assert evs[..i + 1][..i] == evs[..i];
  }

  /** A run kicks the watchdog once when it starts and afterwards only when
      more than the interval has passed since the previous kick; the model's
      watchdog time is always the last kick. */
  lemma RunKicks(model: ModelRecord, store: Store, start: real, evs: seq<Event>, perms: PermissionSource)
    ensures var st := Run(model, store, start, evs, perms).state;
      && KicksSpaced(st)
      && st.kicks[0] == start
  {
    var st0 := StartRun(model, store, start);
    ProcessKeepsKicksSpaced(st0, evs, perms);
  }
}

=== FILE: scenarios.dfy ===
/** Small concrete runs of the importer: the hierarchy is rebuilt from
    parents down, a child before its parent stops the run, and a policy
    document turns into roles, principals and bindings. */
module Scenarios {
  import opened Errors
  import opened Names
  import opened Store
  import opened Resources
  import opened Members
  import opened Policies
  import opened Importer

  const Org123: Record := Record(OrganizationsKind, OrganizationPayload(Organization("123")))
  const Project456: Record := Record(ProjectsKind, ProjectPayload(Project("456", "organization", "123", Some("p"))))

  /** The names the records below compose, spelled out. */
  lemma ScenarioNames()
    ensures OrganizationName(Organization("123")) == "organization/123"
    ensures ProjectParentKey(Project("456", "organization", "123", Some("p"))) == "organization/123"
    ensures ProjectKey("456") == "project/456"
    ensures ChildFullName("organization/123", "project/456") == "organization/123/project/456"
    ensures "organization/123" != OrganizationKey
  {
    assert OrganizationType + "/" + "123" == "organization/123";
    assert ProjectType + "/" + "456" == "project/456";
    assert "organization/123" + "/" + "project/456" == "organization/123/project/456";
    assert "organization/123"[0] == 'o' && |"organization/123"| != |OrganizationKey|;
  }

  /** An organization followed by one of its projects: the run finishes, and
      the project's full name is composed below the organization's. */
  lemma OrganizationThenProject(model: ModelRecord, start: real, c1: real, c2: real, perms: PermissionSource)
    ensures var o := Run(model, EmptyStore, start, [Event(Org123, c1), Event(Project456, c2)], perms);
      && o.Completed?
      && o.state.model.status == Done
      && "project/456" in o.state.env.cache
      && o.state.env.cache["project/456"].fullName == "organization/123/project/456"
      && "project/456" in o.state.env.store.resources
      && o.state.env.store.resources["project/456"].parent == Some("organization/123")
  {
    var evs := [Event(Org123, c1), Event(Project456, c2)];
    var st0 := StartRun(model, EmptyStore, start);
    assert evs[..1][..0] == [];
    assert evs[..2][..1] == evs[..1];
    assert evs[..2] == evs;
    ScenarioNames();
    assert Process(st0, evs[..1], perms).Running?;
  }

  /** The same records in the opposite order: the project's parent is not
      cached yet, so the run stops at the first record and stays in
      progress. */
  lemma ProjectBeforeOrganization(model: ModelRecord, start: real, c1: real, c2: real, perms: PermissionSource)
    ensures var o := Run(model, EmptyStore, start, [Event(Project456, c1), Event(Org123, c2)], perms);
      && o.Aborted?
      && o.at == 0
      && o.error == ParentNotCached("organization/123")
      && o.state.model.status == InProgress
      && o.state.env.store == EmptyStore
  {
    var evs := [Event(Project456, c1), Event(Org123, c2)];
    var st0 := StartRun(model, EmptyStore, start);
    assert evs[..1][..0] == [];
    assert evs[..2][..1] == evs[..1];
    assert evs[..2] == evs;
    ScenarioNames();
    assert Dispatch(st0.env, Project456, perms) == Err(ParentNotCached("organization/123"));
    assert Process(st0, evs[..1], perms) == Stopped(st0, 0, ParentNotCached("organization/123"));
    ProcessStoppedExtends(st0, evs, 1, perms);
  }

  /** The store after the organization and project records above. */
  function HierarchyStore(): (s: Store)
    ensures "project/456" in s.resources
    ensures s.roles == map[] && s.bindings == []
  {
    ScenarioNames();
    var env := ConvertOrganization(Env(map[], EmptyStore), Organization("123"));
    ConvertProject(env, Project("456", "organization", "123", Some("p"))).value.store
  }

  const RoleA: string := "roles/a"
  const Policy456: PolicyRecord :=
    PolicyRecord("project", "456", PolicyDoc([BindingSpec(RoleA, ["user:alice", "group:g1"])]))

  /** A policy with one binding of two members: one binding on the project
      naming both principals, the role created with the permission source's
      permissions, and both members present as principals. */
  lemma PolicyOnProject(perms: PermissionSource)
    ensures var r := ConvertPolicy(HierarchyStore(), Policy456, perms);
      && r.Ok?
      && r.value.bindings == [Binding("project/456", RoleA, ["user/alice", "group/g1"])]
      && RoleA in r.value.roles
      && r.value.roles[RoleA] == Role(RoleA, perms(RoleA))
      && "user/alice" in r.value.principals
      && "group/g1" in r.value.principals
  {
    var s := HierarchyStore();
    var bs := Policy456.doc.bindings;
    ScenarioMembers();
    ScenarioNames();
    assert PolicyResourceName(Policy456) == "project/456";
    assert PolicyBindings("project/456", bs) == [Binding("project/456", RoleA, ["user/alice", "group/g1"])];
    ApplyBindingsContents(s, "project/456", bs, perms);
    var t := ApplyBindings(s, "project/456", bs, perms).value;
    assert MemberNames(bs[0].members)[0] in t.principals;
    assert MemberNames(bs[0].members)[1] in t.principals;
  }

  /** The member strings of `Policy456` split at their `:` ... */
  lemma UserParses()
    ensures ParseMember("user:alice") == Ok(Member("user", "alice"))
  {
    assert "user" + ":" + "alice" == "user:alice";
    ParseFormat(Member("user", "alice"));
  }

  lemma GroupParses()
    ensures ParseMember("group:g1") == Ok(Member("group", "g1"))
  {
    assert "group" + ":" + "g1" == "group:g1";
    ParseFormat(Member("group", "g1"));
  }

  /** The names of two member strings are the names of their two parses. */
  lemma TwoMemberNames(a: string, b: string)
    requires ':' in a && ':' in b
    ensures MembersWellFormed([a, b])
    ensures MemberNames([a, b]) == [PrincipalName(ParseMember(a).value), PrincipalName(ParseMember(b).value)]
  {
  }

  /** Two member strings that parse as a user and a group name those two
      principals, in order. */
  lemma UserAndGroupNames(a: string, b: string)
    requires ParseMember(a) == Ok(Member("user", "alice"))
    requires ParseMember(b) == Ok(Member("group", "g1"))
    ensures MembersWellFormed([a, b])
    ensures MemberNames([a, b]) == ["user/alice", "group/g1"]
  {
    TwoMemberNames(a, b);
    assert "user" + "/" + "alice" == "user/alice";
    assert "group" + "/" + "g1" == "group/g1";
  }

  /** ... and name these principals. */
  lemma ScenarioMembers()
    ensures MembersWellFormed(["user:alice", "group:g1"])
    ensures MemberNames(["user:alice", "group:g1"]) == ["user/alice", "group/g1"]
  {
    UserParses();
    GroupParses();
    UserAndGroupNames("user:alice", "group:g1");
  }

  /** A member string without a `:` fails the policy with that string. */
  lemma MalformedMemberFailsPolicy(perms: PermissionSource)
    ensures ConvertPolicy(HierarchyStore(), PolicyRecord("project", "456", PolicyDoc([BindingSpec(RoleA, ["alice"])])), perms)
            == Err(MalformedMember("alice"))
  {
  }
}

=== FILE: store.dfy ===
/** The persisted store of one model, abstracted as maps keyed by each
    entity's unique name. `merge` is an upsert into a map, `add` of a new
    binding is an append. */
module Store {
  import opened Errors
  import opened Names

  /** A node of the resource hierarchy. `parent` is the local name of the
      parent node; an organization has none. */
  datatype Resource = Resource(
    name: string,
    fullName: string,
    rtype: string,
    parent: Option<string>,
    displayName: Option<string>)

  /** A user, group or service account; `parents` are the names of the
      groups it is a member of. */
  datatype Principal = Principal(name: string, memberName: string, ptype: string, parents: set<string>)

  datatype Role = Role(name: string, permissions: set<string>)

  /** "These principals hold this role on this resource", by names. */
  datatype Binding = Binding(resource: string, role: string, members: seq<string>)

  datatype Store = Store(
    resources: map<string, Resource>,
    principals: map<string, Principal>,
    roles: map<string, Role>,
    permissions: set<string>,
    bindings: seq<Binding>)

  const EmptyStore: Store := Store(map[], map[], map[], {}, [])

  /** Upsert of a resource by its local name. Merging copies only the
      attributes that were set: a resource built without a display name
      keeps the display name already stored. */
  function MergeResource(s: Store, r: Resource): (t: Store)
    ensures t.resources.Keys == s.resources.Keys + {r.name}
    ensures forall n :: n in s.resources && n != r.name ==> t.resources[n] == s.resources[n]
    ensures t.principals == s.principals && t.roles == s.roles
    ensures t.permissions == s.permissions && t.bindings == s.bindings
  {
    var stored :=
      if r.displayName.None? && r.name in s.resources
      then r.(displayName := s.resources[r.name].displayName)
      else r;
    s.(resources := s.resources[r.name := stored])
  }

  /** The stored row after a merge: every attribute from the merged value,
      the display name from the store when the merged value has none. */
  lemma MergeResourceStores(s: Store, r: Resource)
    ensures MergeResource(s, r).resources[r.name].(displayName := r.displayName) == r
    ensures r.displayName.Some? || r.name !in s.resources ==>
              MergeResource(s, r).resources[r.name] == r
    ensures r.displayName.None? && r.name in s.resources ==>
              MergeResource(s, r).resources[r.name].displayName == s.resources[r.name].displayName
  {
  }

  /** Merging the same resource twice is merging it once. */
  lemma MergeResourceIdempotent(s: Store, r: Resource)
    ensures MergeResource(MergeResource(s, r), r) == MergeResource(s, r)
  {
  }

  /** Resolving the same local name again leaves one row holding the latest
      resolution. */
  lemma MergeResourceLatestWins(s: Store, r1: Resource, r2: Resource)
    requires r1.name == r2.name && r2.displayName.Some?
    ensures MergeResource(MergeResource(s, r1), r2) == MergeResource(s, r2)
    ensures |MergeResource(MergeResource(s, r1), r2).resources| <= |s.resources| + 1
  {
    var t := MergeResource(s, r2);
    assert t.resources.Keys == s.resources.Keys + {r2.name};
    assert |s.resources.Keys + {r2.name}| <= |s.resources.Keys| + 1;
  }

  /** Upsert of a principal by name. When `setParents` is false the merged
      object carries no parent list, so an existing principal keeps its
      parents and a new one has none. */
  function MergePrincipal(s: Store, p: Principal, setParents: bool): (t: Store)
    ensures t.principals.Keys == s.principals.Keys + {p.name}
    ensures forall n :: n in s.principals && n != p.name ==> t.principals[n] == s.principals[n]
    ensures t.resources == s.resources && t.roles == s.roles
    ensures t.permissions == s.permissions && t.bindings == s.bindings
  {
    var stored :=
      if setParents then p
      else if p.name in s.principals then p.(parents := s.principals[p.name].parents)
      else p.(parents := {});
    s.(principals := s.principals[p.name := stored])
  }

  /** The parents a principal merged without a parent list ends up with. */
  function KeptParents(s: Store, name: string): set<string> {
    if name in s.principals then s.principals[name].parents else {}
  }

  /** The stored principal after a merge. */
  lemma MergePrincipalStores(s: Store, p: Principal, setParents: bool)
    ensures MergePrincipal(s, p, setParents).principals[p.name].(parents := p.parents) == p
    ensures setParents ==> MergePrincipal(s, p, setParents).principals[p.name] == p
    ensures !setParents && p.name in s.principals ==>
              MergePrincipal(s, p, setParents).principals[p.name].parents == s.principals[p.name].parents
    ensures !setParents && p.name !in s.principals ==>
              MergePrincipal(s, p, setParents).principals[p.name].parents == {}
  {
  }

  /** A merge without a parent list leaves every principal's parents as they
      were. */
  lemma MergePrincipalKeepsParents(s: Store, p: Principal)
    ensures forall n :: KeptParents(MergePrincipal(s, p, false), n) == KeptParents(s, n)
  {
  }

  /** Merging the same principal twice leaves exactly the state of merging
      it once: one principal of that name. */
  lemma MergePrincipalIdempotent(s: Store, p: Principal, setParents: bool)
    ensures MergePrincipal(MergePrincipal(s, p, setParents), p, setParents) == MergePrincipal(s, p, setParents)
    ensures |MergePrincipal(s, p, setParents).principals| ==
              if p.name in s.principals then |s.principals| else |s.principals| + 1
  {
    var t := MergePrincipal(s, p, setParents);
    if p.name in s.principals {
      assert t.principals.Keys == s.principals.Keys;
    } else {
      assert t.principals.Keys == s.principals.Keys + {p.name};
    }
  }

  /** Looks a role up by name and creates it with the given permissions only
      if no role of that name exists; the permissions are upserted too. */
  function GetOrCreateRole(s: Store, name: string, perms: set<string>): (t: Store)
    ensures t.roles.Keys == s.roles.Keys + {name}
    ensures forall n :: n in s.roles ==> t.roles[n] == s.roles[n]
    ensures name !in s.roles ==> t.roles[name] == Role(name, perms) && t.permissions == s.permissions + perms
    ensures name in s.roles ==> t == s
    ensures t.resources == s.resources && t.principals == s.principals && t.bindings == s.bindings
  {
    if name in s.roles then s
    else s.(roles := s.roles[name := Role(name, perms)], permissions := s.permissions + perms)
  }

  /** Bindings are purely additive. */
  function AddBinding(s: Store, b: Binding): (t: Store)
    ensures t.bindings == s.bindings + [b]
    ensures t.resources == s.resources && t.principals == s.principals
    ensures t.roles == s.roles && t.permissions == s.permissions
  {
    s.(bindings := s.bindings + [b])
  }

  /** Nothing is ever removed: names stay, roles keep their permissions, and
      the binding list only grows at its end. */
  ghost predicate Grows(s: Store, t: Store) {
    && s.resources.Keys <= t.resources.Keys
    && s.principals.Keys <= t.principals.Keys
    && (forall n :: n in s.roles ==> n in t.roles && t.roles[n] == s.roles[n])
    && s.permissions <= t.permissions
    && s.bindings <= t.bindings
  }

  lemma GrowsTransitive(s: Store, t: Store, u: Store)
    requires Grows(s, t) && Grows(t, u)
    ensures Grows(s, u)
  {
    assert u.bindings[..|s.bindings|] == t.bindings[..|s.bindings|];
  }

  /** Each resource is filed under its own local name, and its full name is
      a well-formed path ending in that local name. */
  ghost predicate StoreWellFormed(s: Store) {
    forall n :: n in s.resources ==> s.resources[n].name == n && IsPath(s.resources[n].fullName, n)
  }
}
